=== FILE: README.md ===
# kafkarecon, modelled in Dafny

kafkarecon is an interactive reconnaissance shell for Apache Kafka. It keeps
a session: a configuration dict, an optional admin client, an optional
consumer, and a broker label for the prompt. It offers these commands:

- `load <file>` merges a JSON object into the configuration.
- `config` shows the configuration.
- `connect` builds both clients from the configuration.
- `disconnect` closes them.
- `cluster` reports the cluster metadata, the broker list, and each broker's
  security-relevant configuration.

The output is formatted by a small text-table printer, `tprint`.

This project models the decision and formatting logic of those commands as
pure functions. Each takes the session plus the outcomes of everything
outside the program and returns the new session plus the sequence of events
it prints. The outside inputs are file parsing, the fresh group id, the
random choice, client construction, and Kafka queries.

Modules, in dependency order:

- `Wrappers`: `Option`.
- `Strings`: string order, Python's substring test `k in s`, and the
  helpers `s[:n]`, `c * n`, `ljust`, `join` and `str(int)`.
- `Sorting`: a stable sort by key (Python's `sorted`) and the filtering
  comprehension.
- `Dicts`: a Python dict as an insertion-ordered sequence of pairs, with
  `d[k] = v`, `d |= e`, and the restricting comprehension.
- `Table`: `tprint`.
- `Values`: JSON configuration values.
- `Clients`: handles, construction outcomes, metadata and configuration
  entries.
- `Session`: the `State` record and the output events.
- `Config`: `exec_load` and `print_config`.
- `Connection`: `exec_connect`, the empty-configuration guard of `connect`,
  and `exec_disconnect`.
- `Cluster`: `exec_cluster`.

Two points of the code are easy to misread:

- **The entry filter is a substring test.** `k in ("ssl.client.auth")` reads
  like a one-name allow-list. The parentheses do not make a tuple, though, so
  it tests whether the entry name is a substring of `ssl.client.auth`.
  Entries named `ssl` or `auth` would also pass.
- **Brokers are described in metadata order.** The per-broker loop follows
  `meta.brokers.values()`. Only the broker table is sorted by id.

## Model

| member | source | states |
|---|---|---|
| Session.Initial | kafkarecon.py:16-22 | A new session has an empty configuration and neither client, and its label is "not connected". |
| Dicts.SetSpec | kafkarecon.py:156 | `d[k] = v` maps k to v and keeps every other entry. An existing key keeps its place; a new key is appended at the end. |
| Dicts.UpdateSpec | kafkarecon.py:131 | `d \|= e` yields the map of d overridden by e, keeps d's keys in place, and keeps keys distinct. |
| Dicts.UpdateIdempotent | kafkarecon.py:131 | Merging the same dict twice gives the same dict, order included, as merging it once. |
| Dicts.RestrictSpec | kafkarecon.py:174-179 | The comprehension keeps exactly the entries whose key is in the allowed set, with their values. |
| Config.Load | kafkarecon.py:121-134 | An unreadable file, or one that is not an object, leaves the session unchanged and prints one diagnostic. Otherwise the new map is old overridden by the file, old keys are kept, and nothing but the configuration changes. The loaded members are then shown as `print_config` shows them: a table, or "No configuration" for an empty object. |
| Config.LoadOverridesKey | kafkarecon.py:128-131 | After a load, a key in the file has the file's value. Any other key is present exactly when it was before, with its old value. |
| Config.LoadIdempotent | kafkarecon.py:121-131 | Loading the same object twice leaves the session as loading it once. |
| Config.PrintConfig | kafkarecon.py:137-141 | An empty dict prints "No configuration". Otherwise a Key/Value header and one row per entry in dict order, and the table always lays out. |
| Values.ValueCell | kafkarecon.py:141 | A list value becomes a list cell whose texts are the `str()` of each member, in order. A scalar becomes the single text of its `str()`. |
| Session.Message | kafkarecon.py:96-311 | Only the blank line is empty. Every other line opens with " (-)" exactly for refusals, failures and invalid claims, and with " (+)" otherwise. Each line ends with the path, reason, name or decimal id the event carries. |
| Connection.Connect | kafkarecon.py:149-201 | `exec_connect` keeps the configuration a dict with distinct keys. The rows below state what it does. |
| Connection.ConnectCommand | kafkarecon.py:94-98 | `connect` on an empty configuration only prints "Configuration required" and changes nothing. Otherwise it is `exec_connect`. |
| Connection.DefaultGroupId | kafkarecon.py:155-158 | A missing `group.id` is set to the fresh id, appended last, and announced. A present one leaves the dict and the output untouched. |
| Connection.ConnectGroupId | kafkarecon.py:155-162 | Whatever happens after it, connect leaves an existing `group.id` configuration unchanged. Otherwise it adds the fresh id and announces it. |
| Connection.GroupIdSettles | kafkarecon.py:155-158 | After one connect `group.id` is present, so any later connect leaves the configuration exactly as it is. |
| Connection.ConnectWithoutBootstrap | kafkarecon.py:160-162 | Without `bootstrap.servers` neither client is attempted. Handles and label are unchanged, the output is the group-id notice at most, and the last line is the diagnostic. |
| Connection.ResolveServer | kafkarecon.py:164-166 | A scalar server is used as is. A non-empty list yields one of its members; an empty list yields nothing, because `random.choice` raises. |
| Connection.ResolveServerReachesEveryMember | kafkarecon.py:165-166 | Every member of a bootstrap list can be chosen. |
| Connection.ConnectEmptyList | kafkarecon.py:164-166 | An empty bootstrap list attempts no client. Handles and label are unchanged, the output is the group-id notice at most, and the last line is the uncaught IndexError's message. |
| Connection.AdminConfig | kafkarecon.py:173-181 | The admin configuration is exactly the four security options present in the configuration, plus `bootstrap.servers` set to the chosen server. |
| Connection.ConsumerConfig | kafkarecon.py:193-197 | The consumer configuration is the whole configuration with `bootstrap.servers` set to the chosen server and `enable.partition.eof` set to true; no key is lost. |
| Connection.TryAdmin | kafkarecon.py:172-185 | Constructing the admin client never touches the configuration or the consumer. |
| Connection.TryConsumer | kafkarecon.py:192-201 | Constructing the consumer never touches the configuration or the admin client. |
| Connection.ConnectClients | kafkarecon.py:172-201 | Each handle is replaced only on its own success, built from the final configuration, and kept on failure. The label becomes the server if and only if some client was built. |
| Connection.ConnectReports | kafkarecon.py:172-201 | Each client gets one report line. It says "connected" if and only if the client was built, and "failed" with a given reason if and only if construction was refused for that reason. Nothing else is printed besides the group-id notice and blank lines. |
| Connection.ConsumerIndependentOfAdmin | kafkarecon.py:172-201 | The admin outcome does not affect the consumer handle or the configuration. |
| Connection.Disconnect | kafkarecon.py:204-212 | "Not connected" is printed if and only if neither client is present. Exactly the present handles are closed, each once. The session, including the closed handles, is unchanged. |
| Clients.HasBrokerIff | kafkarecon.py:275 | `id in meta.brokers` holds exactly when some broker of the metadata carries the id. |
| Cluster.ClusterReport | kafkarecon.py:219-246 | With no client it prints "Not connected" only. Metadata is asked of the admin client when present, else the consumer. A failed query prints only its reason; otherwise the metadata report follows. Every table printed lays out. |
| Cluster.AdminMetadataPreferred | kafkarecon.py:238-243 | With the admin client present, the consumer's metadata answer has no influence. |
| Cluster.ConsumerOnlyIgnoresDescribe | kafkarecon.py:238-290 | Without the admin client no broker is described, whatever describing would return. When the consumer's metadata query answers, the report is the overview of that metadata alone. |
| Cluster.SortBrokers | kafkarecon.py:268 | The broker table's brokers are a permutation of the metadata's, in ascending id order. |
| Cluster.BrokerTableRows | kafkarecon.py:268-272 | The broker table is the ID/Host/Port header, then one row per broker in sorted order. |
| Cluster.BrokerTablePrintable | kafkarecon.py:269-272 | The broker table always lays out, even with no broker. |
| Cluster.OriginEvent | kafkarecon.py:275-278 | The origin line reports the claimed id, as valid exactly when the broker dict has it and as invalid otherwise. |
| Cluster.ControllerEvent | kafkarecon.py:280-283 | The controller line reports the claimed id, as valid exactly when the broker dict has it and as invalid otherwise. |
| Cluster.Overview | kafkarecon.py:252-284 | The metadata part holds the cluster id, the origin name, the broker table, the origin line and the controller line at fixed places, each followed by a blank line. It holds no other table and no other id line. |
| Cluster.MetadataReport | kafkarecon.py:252-311 | Every table printed once the metadata is at hand lays out without raising. |
| Cluster.MetadataLayout | kafkarecon.py:252-272 | The report opens with the cluster id, origin name and broker table. With the admin client, exactly one event per metadata broker follows, in metadata order. |
| Cluster.MetadataValidation | kafkarecon.py:275-283 | Origin and controller are each reported valid if and only if the broker dict has their id, and invalid if and only if it has not. No other id is reported. |
| Cluster.DescribeAll | kafkarecon.py:290-311 | Every broker is asked exactly once, in metadata order. Each yields its table or its failure line, and a failure does not stop the loop. |
| Cluster.BrokerReport | kafkarecon.py:293-311 | A configuration reply yields the table of that reply's selected entries. A raised request yields "Could not describe broker" with the broker's id. |
| Cluster.BrokerReportTable | kafkarecon.py:294-309 | A broker's table is the header, then one row per shown entry. Every row comes from an entry of the reply whose name is a substring of "ssl.client.auth", every such entry has a row, and rows follow ascending name order. |
| Cluster.MetadataEntryTables | kafkarecon.py:290-309 | In the report, the event for the i-th broker of the metadata is the table of that broker's own reply. |
| Cluster.MetadataDescribeFailures | kafkarecon.py:290-311 | A broker is reported undescribable if and only if the admin client is present, the broker is in the metadata, and its request raised. |
| Cluster.SelectEntriesSpec | kafkarecon.py:295-307 | The shown entries are exactly those whose name is a substring of "ssl.client.auth", each with its multiplicity, in ascending name order. |
| Cluster.EntryRowCells | kafkarecon.py:299-304 | The name is cut to 40 characters and the value to 20, or "-" when absent. The source is shown as is, and each flag is "Yes" when set and empty when not. |
| Cluster.EntryTable | kafkarecon.py:296-309 | A configuration table is the five-column header and one row per shown entry, in order. |
| Cluster.EntryTablePrintable | kafkarecon.py:296-309 | A configuration table always lays out, even when no entry is shown. |
| Strings.IsSubstringIff | kafkarecon.py:305-307 | Python's `k in s` on strings holds exactly when k occurs in s starting at some index. |
| Strings.LessIsLexicographic | kafkarecon.py:295 | The string order `sorted` uses holds when a is a proper prefix of b, or at the first difference a has the smaller character. |
| Cluster.StringLessIsStrictTotal | kafkarecon.py:295 | That order is a strict total order, so sorting by name is well defined. |
| Strings.IntToString | kafkarecon.py:271 | `str()` of an int is a decimal numeral that denotes the int itself. It carries a '-' exactly when the int is negative, and has no leading zero except for 0 itself. |
| Values.Show | kafkarecon.py:141 | A string shows as itself. An int shows as the numeral that denotes it, with no leading zero. A bool shows as "True" or "False" according to its value. |
| Strings.Truncate | kafkarecon.py:300-301 | `s[:n]` is a prefix of s, of length min(\|s\|, n). |
| Sorting.SortBy | kafkarecon.py:268 | Sorting is a permutation. |
| Sorting.SortBySorted | kafkarecon.py:268 | The sort never puts a larger key before a smaller one, given a strict total order. |
| Sorting.Filter | kafkarecon.py:298-308 | Every element the comprehension keeps comes from the input and passes the test. |
| Sorting.FilterCount | kafkarecon.py:298-308 | The comprehension keeps every element that passes, as often as it occurs, and drops every other. |
| Sorting.FilterAppend | kafkarecon.py:298-308 | Filtering a concatenation filters each part and concatenates the results, so kept elements keep their input order. |
| Sorting.FilterSingle | kafkarecon.py:305 | A single element is kept exactly when it passes. |
| Sorting.FilterSorted | kafkarecon.py:295-308 | Filtering a sorted sequence keeps it sorted. |
| Table.Height | kafkarecon.py:325 | A row spreads over as many physical rows as its deepest cell. |
| Table.Physical | kafkarecon.py:324-329 | A row becomes Height physical rows, each with one text per cell. |
| Table.PhysicalColumn | kafkarecon.py:324-329 | Read down a column, a row's physical rows show the cell's texts in order, then " ..." up to the row's height. |
| Table.ColumnWidth | kafkarecon.py:331 | A column's width bounds every text in it and is attained by one. |
| Table.Widths | kafkarecon.py:331 | There is one width per header column, and every text fits its column. |
| Table.WidthsTight | kafkarecon.py:331 | Each width is attained by some physical row, so it is the maximum. |
| Table.Dashes | kafkarecon.py:332 | The second line's cells consist only of '-'. Each is as long as its header cell. |
| Table.TPrint | kafkarecon.py:319-333 | The printer succeeds exactly on printable tables, which are non-empty with no empty or short row. Then it prints the layout of the expanded rows. |
| Table.TPrintLines | kafkarecon.py:322-333 | For a printable table, the printer prints one line per physical row plus the dash line. Every line is 3 + Σwidths + 2·(columns − 1) long. |
| Table.TPrintColumns | kafkarecon.py:331-333 | In every printed line, column i starts at one fixed offset and is its width wide. There it holds, left-justified, the header text, its dashes, or the physical row's text. |
| Table.Layout | kafkarecon.py:332-333 | A layout prints one line more than there are physical rows: the dash line. |
| Table.LayoutLengths | kafkarecon.py:332-333 | Every printed line is 3 + Σwidths + 2·(columns − 1) long. |
| Table.LayoutColumns | kafkarecon.py:331-333 | In every line column i starts at the same offset and is its width wide. It holds the header text, then its dashes, then each physical row's text, left-justified. |
| Table.FormatColumn | kafkarecon.py:333 | Within one printed line, column i holds cell i left-justified to its width. |
| Table.UniformPrintable | kafkarecon.py:324-331 | A table whose rows all have the header's column count, with a header of plain texts, always lays out. |
| Strings.Repeat | kafkarecon.py:332 | `"-" * n` is n characters long, and every one of them is the repeated character. |
| Strings.Join | kafkarecon.py:333 | `sep.join(xs)` of no strings is empty. Otherwise it opens with the first string, followed by the separator when more strings follow. |
| Table.JoinLength | kafkarecon.py:333 | Joining the padded cells with two blanks gives Σwidths + 2·(columns − 1) characters. |
| Table.JoinColumn | kafkarecon.py:333 | In the joined line, cell i sits at the column's fixed offset, unchanged. |
| Dicts.FromPairs | kafkarecon.py:123 | The object `json.load` returns is a dict with distinct keys. A key repeated in the document maps to its last value. |
| Session.Render | kafkarecon.py:96-333 | Every event prints at least one line. |
| Session.RenderPlain | kafkarecon.py:96-311 | Output without tables prints one line per event, its message, in order. |
| Session.RenderAppend | kafkarecon.py:96-333 | Output is printed event by event: the text of two stretches of output is the text of the first followed by the text of the second. |
| Strings.LeftJustify | kafkarecon.py:333 | `ljust(w)` keeps the text as a prefix and pads it with blanks to length w. |

## Left out

- Input and output: argparse, the `input`/`shlex` prompt loop and command dispatch (including `help`, `exit` and unknown commands), and writing to the terminal. Output is modelled as a sequence of events; `Session.Message` and `Session.Render` give their text.
- The entry point's `KeyboardInterrupt` and catch-all handlers. The one uncaught exception the modelled logic can raise, `random.choice` on an empty list, is the event `Crashed`, which stands for the catch-all's line and the end of the program.
- The Kafka client library: construction, `list_topics` and `describe_configs` are network calls. Their outcomes are inputs (`ConnectOracle`, `ClusterOracle`), and exceptions other than KafkaException are not modelled.
- Connection.Disconnect: `close()` has no modelled outcome and is taken to succeed. A closed handle stays in the session, as in the code, and a later `cluster` queries it like an open one; what the library does with a closed client is not modelled.
- `json.load` and opening the file are an input `Document`. The text of a parse error is not modelled, only that loading failed. JSON null, floats and nested values are one opaque scalar carrying their printed text.
- `uuid4().hex` and `random.choice` are inputs: a fresh id string, and an index taken modulo the list's length.
- The commented-out `describe_cluster` call and the `print(cluster)` it would feed are disabled code. The timeout of 15 seconds is opaque to the logic.
- The bare-string form of `tprint`, where the first argument is a string, is not modelled; no caller uses it.
- Cell values other than strings in `tprint` are converted with `str()` by the caller in the model, using `Values.Show` and `Strings.IntToString`.
- Cluster.SelectEntriesSpec: `describe_configs` returns a dict, so entry names are unique there. The model takes a sequence that may repeat a name, and keeps repeated names in input order; `sorted` would break that tie by comparing the entries. Ascending name order is stated, and nothing about the order among equal names.
- Clients.Metadata: the broker dict is a sequence of brokers and is not required to have distinct ids, as dict keys would be. All statements hold for any sequence.
- Connection.TryAdmin and Connection.TryConsumer: their contracts state only what each construction leaves alone. What they set is stated per connect in Connection.ConnectClients.
- Connection.Connect: its own contract states only that the configuration stays a proper dict. Its behaviour is stated by Connection.ConnectGroupId, Connection.ConnectWithoutBootstrap, Connection.ConnectEmptyList, Connection.ConnectClients, Connection.ConnectReports, Connection.ConsumerIndependentOfAdmin and Connection.GroupIdSettles.
- The class-level defaults of the `State` dataclass, which all instances share, have no effect within one session and are not modelled.

=== FILE: clients.dfy ===
/** The boundary to the Kafka client library. Client construction, metadata
    queries and config queries reach the network; the model receives their
    outcomes as inputs. */
module Clients {
  import opened Wrappers
  import opened Values

  /** An administrative client, remembered by the configuration it was built from. */
  datatype AdminHandle = AdminHandle(conf: Config)

  /** A consumer, remembered by the configuration it was built from. */
  datatype ConsumerHandle = ConsumerHandle(conf: Config)

  /** The outcome of constructing a client: built, or a KafkaException with its message. */
  datatype Construction = Built | Refused(reason: string)

  /** The outcome of a blocking client call: a value, or a KafkaException with its message. */
  datatype Reply<+T> = Reply(value: T) | Raised(reason: string)

  datatype Broker = Broker(id: int, host: string, port: int)

  /** One `list_topics` result. `brokers` lists the metadata's broker dict in
      its own order; origin and controller ids are claims to be checked. */
  datatype Metadata = Metadata(
    clusterId: Option<string>,
    origBrokerName: string,
    origBrokerId: int,
    controllerId: int,
    brokers: seq<Broker>)

  /** One entry of a broker's configuration: `source` is the text its source
      tag prints as; an absent value is None. */
  datatype ConfigEntry = ConfigEntry(
    name: string,
    value: Option<string>,
    source: string,
    isReadOnly: bool,
    isSensitive: bool)

  /** Whether the broker dict has an entry for id (`id in meta.brokers`). */
  predicate HasBroker(brokers: seq<Broker>, id: int)
  {
    |brokers| > 0 && (brokers[0].id == id || HasBroker(brokers[1..], id))
  }

  /** HasBroker holds exactly when some broker carries the id. */
  lemma {:induction false} HasBrokerIff(brokers: seq<Broker>, id: int)
    ensures HasBroker(brokers, id) <==> exists i :: 0 <= i < |brokers| && brokers[i].id == id
  {
    if |brokers| > 0 {
      HasBrokerIff(brokers[1..], id);
      if HasBroker(brokers[1..], id) {
        var i :| 0 <= i < |brokers[1..]| && brokers[1..][i].id == id;
        assert brokers[i + 1].id == id;
      }
      if exists i :: 0 <= i < |brokers| && brokers[i].id == id {
        var i :| 0 <= i < |brokers| && brokers[i].id == id;
        if i > 0 {
          assert brokers[1..][i - 1].id == id;
        }
      }
    }
  }
}

=== FILE: cluster.dfy ===
/** `cluster`: reports the cluster's metadata and, through the admin client,
    each broker's security-relevant configuration. */
module Cluster {
  import opened Wrappers
  import opened Strings
  import opened Sorting
  import opened Clients
  import opened Session
  import opened Table

  /** The configuration names whose entries are shown. `exec_cluster` tests
      membership in a parenthesised string, which is not a tuple, so the test
      is whether the name is a substring of this string. */
  const AllowList: string := "ssl.client.auth"
  const NameWidth: nat := 40
  const ValueWidth: nat := 20

  /** What `exec_cluster` learns from the clients: the `list_topics` outcome
      through each client, and the `describe_configs` outcome per broker id. */
  datatype ClusterOracle = ClusterOracle(
    adminMeta: Reply<Metadata>,
    consumerMeta: Reply<Metadata>,
    describe: int -> Reply<seq<(string, ConfigEntry)>>)

  // ----- the broker table -----

  function BrokerId(b: Broker): int
  {
    b.id
  }

  /** The brokers of the metadata, sorted by id for the broker table. */
  function SortBrokers(bs: seq<Broker>): (r: seq<Broker>)
    ensures |r| == |bs|
    ensures multiset(r) == multiset(bs)
    ensures forall i, j :: 0 <= i < j < |r| ==> r[i].id <= r[j].id
  {
    IntLessIsStrictTotal();
    SortBySorted(bs, BrokerId, IntLess);
    SortBy(bs, BrokerId, IntLess)
  }

  const BrokerHeader: Row := [Text("ID"), Text("Host"), Text("Port")]

  function BrokerRow(b: Broker): Row
  {
    [Text(IntToString(b.id)), Text(b.host), Text(IntToString(b.port))]
  }

  /** The ID/Host/Port table. */
  function BrokerTable(brokers: seq<Broker>): seq<Row>
  {
    var sorted := SortBrokers(brokers);
    [BrokerHeader] + seq(|sorted|, i requires 0 <= i < |sorted| => BrokerRow(sorted[i]))
  }

  /** The broker table always lays out. */
  lemma BrokerTablePrintable(brokers: seq<Broker>)
    ensures Printable(BrokerTable(brokers))
  {
    UniformPrintable(BrokerTable(brokers), 3);
  }

  /** The broker table has the header and then one row per broker, in
      ascending id order. */
  lemma BrokerTableRows(brokers: seq<Broker>)
    ensures var rows := BrokerTable(brokers);
      var sorted := SortBrokers(brokers);
      && |rows| == |brokers| + 1 && rows[0] == BrokerHeader
      && forall i :: 0 <= i < |sorted| ==> rows[i + 1] == BrokerRow(sorted[i])
  {
  }

  // ----- the per-broker configuration tables -----

  function EntryKey(e: (string, ConfigEntry)): string
  {
    e.0
  }

  lemma StringLessIsStrictTotal()
    ensures StrictTotalOrder(Less)
  {
    forall a: string
      ensures !Less(a, a)
    {
      LessIrreflexive(a);
    }
    forall a: string, b: string, c: string | Less(a, b) && Less(b, c)
      ensures Less(a, c)
    {
      LessTransitive(a, b, c);
    }
    forall a: string, b: string | a != b
      ensures Less(a, b) || Less(b, a)
    {
      LessTotal(a, b);
    }
  }


  /** Whether an entry survives the filter of the configuration table. */
  predicate Shown(e: (string, ConfigEntry))
  {
    IsSubstring(e.0, AllowList)
  }

  /** A broker's configuration entries sorted by name, then filtered: the
      entries in ascending name order, those not shown dropped. */
  function SelectEntries(es: seq<(string, ConfigEntry)>): seq<(string, ConfigEntry)>
  {
    Filter(SortBy(es, EntryKey, Less), Shown)
  }

  /** The entries shown for one broker are those whose name is a substring
      of AllowList, each as often as it was returned, in ascending name
      order. */
  lemma SelectEntriesSpec(es: seq<(string, ConfigEntry)>)
    ensures var r := SelectEntries(es);
      && (forall x :: multiset(r)[x] == if Shown(x) then multiset(es)[x] else 0)
      && SortedBy(r, EntryKey, Less)
  {
    SelectEntriesCount(es);
    SelectEntriesSorted(es);
  }

  lemma SelectEntriesCount(es: seq<(string, ConfigEntry)>)
    ensures forall x :: multiset(SelectEntries(es))[x] == if Shown(x) then multiset(es)[x] else 0
  {
    var sorted := SortBy(es, EntryKey, Less);
    assert multiset(sorted) == multiset(es);
    FilterCount(sorted, Shown);
  }

  lemma SelectEntriesSorted(es: seq<(string, ConfigEntry)>)
    ensures SortedBy(SelectEntries(es), EntryKey, Less)
  {
    var sorted := SortBy(es, EntryKey, Less);
    StringLessIsStrictTotal();
    SortBySorted(es, EntryKey, Less);
    FilterSorted(sorted, Shown, EntryKey, Less);
  }

  /** One row of a broker's configuration table: five texts. */
  function EntryRow(e: ConfigEntry): (r: Row)
    ensures |r| == 5 && forall i :: 0 <= i < 5 ==> r[i].Text?
  {
    [Text(Truncate(e.name, NameWidth)),
     Text(match e.value case Some(v) => Truncate(v, ValueWidth) case None => "-"),
     Text(e.source),
     Text(if e.isReadOnly then "Yes" else ""),
     Text(if e.isSensitive then "Yes" else "")]
  }

  /** The cells of an entry's row: the name cut to 40 characters, the value
      cut to 20 or "-" when absent, the source, and "Yes" or nothing for each
      flag. */
  lemma EntryRowCells(e: ConfigEntry)
    ensures var r := EntryRow(e);
      && r[0].s <= e.name
      && |r[0].s| == (if |e.name| <= NameWidth then |e.name| else NameWidth)
      && (e.value.Some? ==>
           && r[1].s <= e.value.value
           && |r[1].s| == if |e.value.value| <= ValueWidth then |e.value.value| else ValueWidth)
      && (e.value.None? ==> r[1].s == "-")
      && r[2].s == e.source
      && (r[3].s == "Yes" <==> e.isReadOnly)
      && (r[3].s == "" <==> !e.isReadOnly)
      && (r[4].s == "Yes" <==> e.isSensitive)
      && (r[4].s == "" <==> !e.isSensitive)
  {
  }

  const EntryHeader: Row := [Text("Name"), Text("Value"), Text("Source"), Text("Read Only"), Text("Sensitive")]

  /** The configuration table of one broker, given the entries it shows. */
  function EntryTable(sel: seq<(string, ConfigEntry)>): (rows: seq<Row>)
    ensures |rows| == |sel| + 1 && rows[0] == EntryHeader
    ensures forall i :: 0 <= i < |sel| ==> rows[i + 1] == EntryRow(sel[i].1)
  {
    [EntryHeader] + seq(|sel|, i requires 0 <= i < |sel| => EntryRow(sel[i].1))
  }

  /** A configuration table always lays out, even with no entry shown. */
  lemma EntryTablePrintable(sel: seq<(string, ConfigEntry)>)
    ensures Printable(EntryTable(sel))
  {
    UniformPrintable(EntryTable(sel), 5);
  }

  /** The table of one broker's configuration, or the line saying it could
      not be described. */
  function BrokerReport(reply: Reply<seq<(string, ConfigEntry)>>, id: int): (e: Event)
    ensures e.Tabulated? <==> reply.Reply?
    ensures reply.Reply? ==> e == Tabulated(EntryTable(SelectEntries(reply.value)))
    ensures reply.Raised? ==> e == DescribeFailed(id)
    ensures e.Tabulated? || e.DescribeFailed?
  {
    match reply
    case Reply(es) => Tabulated(EntryTable(SelectEntries(es)))
    case Raised(_) => DescribeFailed(id)
  }

  /** The per-broker loop: every broker of the metadata, in its order, is
      asked once; a failed request is reported for that broker and the loop
      goes on. */
  function DescribeAll(brokers: seq<Broker>, describe: int -> Reply<seq<(string, ConfigEntry)>>): (out: seq<Event>)
    ensures |out| == |brokers|
    ensures forall i :: 0 <= i < |out| ==> out[i] == BrokerReport(describe(brokers[i].id), brokers[i].id)
    ensures forall i :: 0 <= i < |out| ==> out[i].Tabulated? || out[i].DescribeFailed?
  {
    if |brokers| == 0 then []
    else [BrokerReport(describe(brokers[0].id), brokers[0].id)] + DescribeAll(brokers[1..], describe)
  }

  /** Every configuration table of the loop lays out. */
  lemma DescribeAllPrintable(brokers: seq<Broker>, describe: int -> Reply<seq<(string, ConfigEntry)>>)
    ensures TablesPrintable(DescribeAll(brokers, describe))
  {
    var out := DescribeAll(brokers, describe);
    forall k | 0 <= k < |out| && out[k].Tabulated?
      ensures Printable(out[k].rows)
    {
      var reply := describe(brokers[k].id);
      assert out[k] == BrokerReport(reply, brokers[k].id);
      EntryTablePrintable(SelectEntries(reply.value));
    }
  }

  /** A broker's configuration table, given its reply: the header, then
      one row per shown entry. Every row comes from an entry of the reply
      whose name is a substring of AllowList, every such entry has a row,
      and the rows follow ascending name order. */
  lemma BrokerReportTable(es: seq<(string, ConfigEntry)>, id: int)
    ensures var sel := SelectEntries(es);
      var rows := BrokerReport(Reply(es), id).rows;
      && |rows| == |sel| + 1 && rows[0] == EntryHeader
      && (forall i :: 0 <= i < |sel| ==> rows[i + 1] == EntryRow(sel[i].1) && sel[i] in es && Shown(sel[i]))
      && (forall x :: x in es && Shown(x) ==> x in sel)
      && (forall i, j :: 0 <= i < j < |sel| ==> !Less(sel[j].0, sel[i].0))
  {
    var sel := SelectEntries(es);
    SelectEntriesSpec(es);
    forall i | 0 <= i < |sel|
      ensures sel[i] in es && Shown(sel[i])
    {
      assert sel[i] in multiset(sel);
    }
    forall x | x in es && Shown(x)
      ensures x in sel
    {
      assert x in multiset(es);
    }
  }

  /** In the report, every configuration table shows the reply for its
      broker as BrokerReportTable describes it: only shown entries, in name
      order. */
  lemma MetadataEntryTables(meta: Metadata, describe: int -> Reply<seq<(string, ConfigEntry)>>, i: int)
    requires 0 <= i < |meta.brokers| && describe(meta.brokers[i].id).Reply?
    ensures var out := MetadataReport(meta, true, describe);
      var es := describe(meta.brokers[i].id).value;
      && 10 + i < |out|
      && out[10 + i] == Tabulated(EntryTable(SelectEntries(es)))
  {
    MetadataLayout(meta, true, describe);
  }

  // ----- the whole command -----

  /** The line on the metadata's origin broker: valid when the broker dict
      has its id. */
  function OriginEvent(meta: Metadata): (e: Event)
    ensures e == OriginBrokerId(meta.origBrokerId) || e == InvalidOriginBrokerId(meta.origBrokerId)
    ensures e.OriginBrokerId? <==> HasBroker(meta.brokers, meta.origBrokerId)
  {
    if HasBroker(meta.brokers, meta.origBrokerId) then OriginBrokerId(meta.origBrokerId)
    else InvalidOriginBrokerId(meta.origBrokerId)
  }

  /** The line on the controller: valid when the broker dict has its id. */
  function ControllerEvent(meta: Metadata): (e: Event)
    ensures e == ControllerId(meta.controllerId) || e == InvalidControllerId(meta.controllerId)
    ensures e.ControllerId? <==> HasBroker(meta.brokers, meta.controllerId)
  {
    if HasBroker(meta.brokers, meta.controllerId) then ControllerId(meta.controllerId)
    else InvalidControllerId(meta.controllerId)
  }

  /** What is printed once metadata is at hand, before the per-broker
      tables; `table` is the broker table. */
  function Overview(meta: Metadata, table: seq<Row>): (out: seq<Event>)
    ensures |out| == 10
    ensures out[0] == ClusterId(meta.clusterId) && out[2] == OriginBrokerName(meta.origBrokerName)
    ensures out[4] == Tabulated(table)
    ensures out[6] == OriginEvent(meta) && out[8] == ControllerEvent(meta)
    ensures forall k :: 0 <= k < 10 && k != 4 ==> !out[k].Tabulated?
    ensures forall k :: 0 <= k < 10 && k != 6 && k != 8 ==> !IdEvent(out[k]) && !out[k].DescribeFailed?
    ensures forall k :: 0 <= k < 10 && k % 2 == 1 ==> out[k] == Blank
  {
    [ClusterId(meta.clusterId), Blank, OriginBrokerName(meta.origBrokerName), Blank,
     Tabulated(table), Blank, OriginEvent(meta), Blank, ControllerEvent(meta), Blank]
  }

  lemma OverviewPrintable(meta: Metadata, table: seq<Row>)
    requires Printable(table)
    ensures TablesPrintable(Overview(meta, table))
  {
  }

  /** The metadata query goes to the admin client when there is one. */
  function MetadataSource(s: State, o: ClusterOracle): Reply<Metadata>
  {
    if s.admin.Some? then o.adminMeta else o.consumerMeta
  }

  /** `exec_cluster`. Without a client it only says so; a failed metadata
      query prints its reason and nothing else. */
  function ClusterReport(s: State, o: ClusterOracle): (out: seq<Event>)
    ensures s.admin.None? && s.consumer.None? ==> out == [NotConnected]
    ensures (s.admin.Some? || s.consumer.Some?) && MetadataSource(s, o).Raised? ==>
      out == [MetadataFailed(MetadataSource(s, o).reason), Blank]
    ensures (s.admin.Some? || s.consumer.Some?) && MetadataSource(s, o).Reply? ==>
      out == MetadataReport(MetadataSource(s, o).value, s.admin.Some?, o.describe)
    ensures TablesPrintable(out)
  {
    if s.admin.None? && s.consumer.None? then [NotConnected]
    else
      match MetadataSource(s, o)
      case Raised(reason) => [MetadataFailed(reason), Blank]
      case Reply(meta) => MetadataReport(meta, s.admin.Some?, o.describe)
  }

  /** What `exec_cluster` prints once the metadata is at hand; the brokers
      are described only when `withAdmin`. */
  function MetadataReport(meta: Metadata, withAdmin: bool, describe: int -> Reply<seq<(string, ConfigEntry)>>): (out: seq<Event>)
    ensures TablesPrintable(out)
  {
    var table := BrokerTable(meta.brokers);
    var perBroker := if withAdmin then DescribeAll(meta.brokers, describe) else [];
    BrokerTablePrintable(meta.brokers);
    OverviewPrintable(meta, table);
    DescribeAllPrintable(meta.brokers, describe);
    TablesPrintableConcat(Overview(meta, table), perBroker);
    Overview(meta, table) + perBroker
  }

  /** With metadata at hand the report opens with the cluster id, the origin
      broker name and the broker table; then, with the admin client, comes
      one event per broker of the metadata, in its order. */
  lemma MetadataLayout(meta: Metadata, withAdmin: bool, describe: int -> Reply<seq<(string, ConfigEntry)>>)
    ensures var out := MetadataReport(meta, withAdmin, describe);
      && |out| == 10 + (if withAdmin then |meta.brokers| else 0)
      && out[0] == ClusterId(meta.clusterId)
      && out[2] == OriginBrokerName(meta.origBrokerName)
      && out[4] == Tabulated(BrokerTable(meta.brokers))
      && forall i :: 0 <= i < |out| - 10 ==>
           out[10 + i] == BrokerReport(describe(meta.brokers[i].id), meta.brokers[i].id)
  {
    var pb := if withAdmin then DescribeAll(meta.brokers, describe) else [];
    var ov := Overview(meta, BrokerTable(meta.brokers));
    var out := MetadataReport(meta, withAdmin, describe);
    assert out == ov + pb;
    forall i | 0 <= i < |out| - 10
      ensures out[10 + i] == pb[i]
    {
    }
  }

  /** Whether an event reports on the origin broker or the controller. */
  predicate IdEvent(e: Event)
  {
    e.OriginBrokerId? || e.InvalidOriginBrokerId? || e.ControllerId? || e.InvalidControllerId?
  }

  /** The origin broker is reported at position 6, the controller at
      position 8, and neither anywhere else; no broker is reported
      undescribable before the per-broker part. */
  lemma MetadataShape(meta: Metadata, withAdmin: bool, describe: int -> Reply<seq<(string, ConfigEntry)>>)
    ensures var out := MetadataReport(meta, withAdmin, describe);
      && |out| >= 10
      && out[6] == OriginEvent(meta)
      && out[8] == ControllerEvent(meta)
      && (forall k :: 0 <= k < |out| && k != 6 && k != 8 ==> !IdEvent(out[k]))
  {
    var pb := if withAdmin then DescribeAll(meta.brokers, describe) else [];
    var ov := Overview(meta, BrokerTable(meta.brokers));
    var out := MetadataReport(meta, withAdmin, describe);
    assert out == ov + pb;
    forall k | 0 <= k < |out| && k != 6 && k != 8
      ensures !IdEvent(out[k])
    {
      if k >= 10 {
        assert out[k] == pb[k - 10];
      }
    }
  }

  /** The origin broker and the controller are reported as valid exactly
      when the metadata's broker dict has their id, and as invalid exactly
      when it has not. */
  lemma MetadataValidation(meta: Metadata, withAdmin: bool, describe: int -> Reply<seq<(string, ConfigEntry)>>)
    ensures var out := MetadataReport(meta, withAdmin, describe);
      && (forall id :: OriginBrokerId(id) in out <==> id == meta.origBrokerId && HasBroker(meta.brokers, id))
      && (forall id :: InvalidOriginBrokerId(id) in out <==> id == meta.origBrokerId && !HasBroker(meta.brokers, id))
      && (forall id :: ControllerId(id) in out <==> id == meta.controllerId && HasBroker(meta.brokers, id))
      && (forall id :: InvalidControllerId(id) in out <==> id == meta.controllerId && !HasBroker(meta.brokers, id))
  {
    var out := MetadataReport(meta, withAdmin, describe);
    MetadataShape(meta, withAdmin, describe);
    forall e | IdEvent(e)
      ensures e in out <==> e == out[6] || e == out[8]
    {
      if e in out {
        var k :| 0 <= k < |out| && out[k] == e;
      }
    }
  }

  /** The loop reports a broker undescribable exactly when it is among the
      brokers and its describe request raised. */
  lemma {:induction false} DescribeAllFailures(brokers: seq<Broker>, describe: int -> Reply<seq<(string, ConfigEntry)>>, id: int)
    ensures DescribeFailed(id) in DescribeAll(brokers, describe) <==> HasBroker(brokers, id) && describe(id).Raised?
  {
    if |brokers| > 0 {
      DescribeAllFailures(brokers[1..], describe, id);
      var out := DescribeAll(brokers, describe);
      assert out == [BrokerReport(describe(brokers[0].id), brokers[0].id)] + DescribeAll(brokers[1..], describe);
    }
  }

  /** A broker is reported undescribable exactly when the admin client is
      connected, the broker is in the metadata and its describe request
      raised. */
  lemma MetadataDescribeFailures(meta: Metadata, withAdmin: bool, describe: int -> Reply<seq<(string, ConfigEntry)>>, id: int)
    ensures DescribeFailed(id) in MetadataReport(meta, withAdmin, describe) <==>
      withAdmin && HasBroker(meta.brokers, id) && describe(id).Raised?
  {
    var pb := if withAdmin then DescribeAll(meta.brokers, describe) else [];
    var ov := Overview(meta, BrokerTable(meta.brokers));
    assert MetadataReport(meta, withAdmin, describe) == ov + pb;
    assert DescribeFailed(id) !in ov;
    DescribeAllFailures(meta.brokers, describe, id);
  }

  /** The admin client's metadata is used whenever it is connected: what the
      consumer's query would return does not matter. */
  lemma AdminMetadataPreferred(s: State, o: ClusterOracle, m: Reply<Metadata>)
    requires s.admin.Some?
    ensures ClusterReport(s, o) == ClusterReport(s, o.(consumerMeta := m))
  {
  }

  /** Without the admin client no broker is described: the describe outcomes
      do not matter and the report is the overview alone. */
  lemma ConsumerOnlyIgnoresDescribe(s: State, o: ClusterOracle, d: int -> Reply<seq<(string, ConfigEntry)>>)
    requires s.admin.None?
    ensures ClusterReport(s, o) == ClusterReport(s, o.(describe := d))
    ensures s.consumer.Some? && o.consumerMeta.Reply? ==>
      ClusterReport(s, o) == Overview(o.consumerMeta.value, BrokerTable(o.consumerMeta.value.brokers))
  {
  }
}

=== FILE: config.dfy ===
/** The configuration store: `load <file>` merges a JSON object into the
    configuration, `config` shows it. */
module Config {
  import opened Dicts
  import opened Values
  import opened Session
  import Table

  /** What reading a configuration file yields: nothing (it could not be
      opened or parsed), a JSON document whose top level is not an object, or
      an object's members in document order. */
  datatype Document = Unreadable | NotObject | Object(members: seq<(string, Value)>)

  const ConfigHeader: Table.Row := [Table.Text("Key"), Table.Text("Value")]

  /** `print_config`: a Key/Value table in the dict's order, or a notice when
      the dict is empty. */
  function PrintConfig(d: Config): (out: seq<Event>)
    ensures |d| == 0 ==> out == [NoConfiguration]
    ensures |d| > 0 ==> |out| == 1 && out[0].Tabulated?
    ensures |d| > 0 ==> var rows := out[0].rows;
      && |rows| == |d| + 1
      && rows[0] == ConfigHeader
      && forall i :: 0 <= i < |d| ==> rows[i + 1] == [Table.Text(d[i].0), ValueCell(d[i].1)]
    ensures TablesPrintable(out)
  {
    if |d| == 0 then [NoConfiguration]
    else
      var rows := [ConfigHeader] + seq(|d|, i requires 0 <= i < |d| => [Table.Text(d[i].0), ValueCell(d[i].1)]);
      Table.UniformPrintable(rows, 2);
      [Tabulated(rows)]
  }

  /** `exec_load`. A file that cannot be read or parsed, or whose top level is
      not an object, leaves the session as it was and prints one diagnostic.
      Otherwise the object's members are merged over the configuration (keys
      in the file override, all others stay, existing keys keep their place)
      and the loaded members are shown. */
  function Load(s: State, path: string, doc: Document): (r: (State, seq<Event>))
    requires Distinct(s.config)
    ensures Distinct(r.0.config)
    ensures doc.Unreadable? ==> r == (s, [LoadFailed(path)])
    ensures doc.NotObject? ==> r == (s, [NotAnObject])
    ensures doc.Object? ==>
      && r.0 == s.(config := r.0.config)
      && ToMap(r.0.config) == ToMap(s.config) + ToMap(doc.members)
      && Keys(s.config) <= Keys(r.0.config)
      && r.1 == [Loaded, Blank] + PrintConfig(FromPairs(doc.members))
    ensures TablesPrintable(r.1)
  {
    match doc
    case Unreadable => (s, [LoadFailed(path)])
    case NotObject => (s, [NotAnObject])
    case Object(members) =>
      var loaded := FromPairs(members);
      UpdateSpec(s.config, loaded);
      (s.(config := Update(s.config, loaded)), [Loaded, Blank] + PrintConfig(loaded))
  }

  /** Loading the same object a second time changes nothing. */
  lemma LoadIdempotent(s: State, path: string, doc: Document)
    requires Distinct(s.config)
    ensures Load(Load(s, path, doc).0, path, doc).0 == Load(s, path, doc).0
  {
    if doc.Object? {
      UpdateIdempotent(s.config, FromPairs(doc.members));
    }
  }

  /** The override rule spelled out for one key: after a successful load a key
      maps to the file's value when the file has it, and keeps its old value
      (or stays absent) otherwise. */
  lemma LoadOverridesKey(s: State, path: string, members: seq<(string, Value)>, k: string)
    requires Distinct(s.config)
    ensures var m := ToMap(Load(s, path, Object(members)).0.config);
      && (k in ToMap(members) ==> k in m && m[k] == ToMap(members)[k])
      && (k !in ToMap(members) ==> (k in m <==> k in ToMap(s.config)))
      && (k !in ToMap(members) && k in ToMap(s.config) ==> m[k] == ToMap(s.config)[k])
  {
  }
}

=== FILE: connection.dfy ===
/** Connection handling: `connect` builds an admin client and a consumer from
    the configuration, `disconnect` closes them. */
module Connection {
  import opened Wrappers
  import opened Dicts
  import opened Values
  import opened Clients
  import opened Session

  const GroupIdKey: string := "group.id"
  const BootstrapKey: string := "bootstrap.servers"
  const PartitionEofKey: string := "enable.partition.eof"

  /** The only options the admin client is given besides the bootstrap server. */
  const AdminKeys: set<string> :=
    {"security.protocol", "ssl.ca.location", "ssl.certificate.location", "ssl.key.location"}

  /** The message of the IndexError `random.choice` raises on an empty list. */
  const EmptyChoice: string := "Cannot choose from an empty sequence"

  /** What `exec_connect` takes from outside the model: the `uuid4().hex` it
      would use as group id, the index `random.choice` draws (taken modulo the
      list's length), and how constructing each client turns out. */
  datatype ConnectOracle = ConnectOracle(
    freshId: string,
    pick: nat,
    admin: Construction,
    consumer: Construction)

  /** A missing `group.id` is set to the fresh id (and announced); a present
      one is never replaced. */
  function DefaultGroupId(config: Config, freshId: string): (r: (Config, seq<Event>))
    requires Distinct(config)
    ensures Distinct(r.0)
    ensures GroupIdKey in ToMap(config) ==> r == (config, [])
    ensures GroupIdKey !in ToMap(config) ==>
      && ToMap(r.0) == ToMap(config)[GroupIdKey := One(Str(freshId))]
      && Keys(r.0) == Keys(config) + [GroupIdKey]
      && r.1 == [GroupIdGenerated(freshId), Blank]
  {
    if GroupIdKey in ToMap(config) then (config, [])
    else
      SetSpec(config, GroupIdKey, One(Str(freshId)));
      (Set(config, GroupIdKey, One(Str(freshId))), [GroupIdGenerated(freshId), Blank])
  }

  /** The server to connect to: a scalar as it is, one member of a list, and
      nothing for an empty list (where `random.choice` raises). */
  function ResolveServer(v: Value, pick: nat): (r: Option<Scalar>)
    ensures v.One? ==> r == Some(v.x)
    ensures v.List? ==> (r.Some? <==> |v.items| > 0)
    ensures v.List? && r.Some? ==> r.value in v.items
  {
    match v
    case One(x) => Some(x)
    case List(items) => if |items| == 0 then None else Some(items[pick % |items|])
  }

  /** Every member of a bootstrap list is a possible choice. */
  lemma ResolveServerReachesEveryMember(items: seq<Scalar>, x: Scalar)
    requires x in items
    ensures exists pick: nat :: ResolveServer(List(items), pick) == Some(x)
  {
    var i :| 0 <= i < |items| && items[i] == x;
    assert i % |items| == i;
    assert ResolveServer(List(items), i) == Some(x);
  }

  /** The admin client's configuration: the security options of the
      configuration and nothing else, plus the chosen server. */
  function AdminConfig(config: Config, server: Scalar): (r: Config)
    requires Distinct(config)
    ensures Distinct(r)
    ensures ToMap(r) ==
      (map k | k in ToMap(config) && k in AdminKeys :: ToMap(config)[k])[BootstrapKey := One(server)]
  {
    RestrictSpec(config, AdminKeys);
    SetSpec(Restrict(config, AdminKeys), BootstrapKey, One(server));
    Set(Restrict(config, AdminKeys), BootstrapKey, One(server))
  }

  /** The consumer's configuration: every option of the configuration, with the
      chosen server and end-of-partition events switched on. */
  function ConsumerConfig(config: Config, server: Scalar): (r: Config)
    requires Distinct(config)
    ensures Distinct(r)
    ensures ToMap(r) == ToMap(config)[BootstrapKey := One(server)][PartitionEofKey := One(Bool(true))]
    ensures Keys(config) <= Keys(r)
  {
    var withServer := Set(config, BootstrapKey, One(server));
    SetSpec(config, BootstrapKey, One(server));
    SetSpec(withServer, PartitionEofKey, One(Bool(true)));
    Set(withServer, PartitionEofKey, One(Bool(true)))
  }

  /** Constructing the admin client: on success the handle and the broker label
      are replaced; on failure the session keeps what it had. */
  function TryAdmin(s: State, server: Scalar, outcome: Construction): (r: (State, seq<Event>))
    requires Distinct(s.config)
    ensures r.0.config == s.config && r.0.consumer == s.consumer
  {
    match outcome
    case Built => (s.(admin := Some(AdminHandle(AdminConfig(s.config, server))), broker := server), [AdminConnected])
    case Refused(reason) => (s, [AdminConnectFailed(reason)])
  }

  /** Constructing the consumer, likewise. */
  function TryConsumer(s: State, server: Scalar, outcome: Construction): (r: (State, seq<Event>))
    requires Distinct(s.config)
    ensures r.0.config == s.config && r.0.admin == s.admin
  {
    match outcome
    case Built => (s.(consumer := Some(ConsumerHandle(ConsumerConfig(s.config, server))), broker := server), [ConsumerConnected])
    case Refused(reason) => (s, [ConsumerConnectFailed(reason)])
  }

  /** `exec_connect`. */
  function Connect(s: State, o: ConnectOracle): (r: (State, seq<Event>))
    requires Distinct(s.config)
    ensures Distinct(r.0.config)
  {
    var (config, announced) := DefaultGroupId(s.config, o.freshId);
    var s1 := s.(config := config);
    if BootstrapKey !in ToMap(config) then
      (s1, announced + [BootstrapMissing])
    else
      match ResolveServer(ToMap(config)[BootstrapKey], o.pick)
      case None => (s1, announced + [Crashed(EmptyChoice)])
      case Some(server) =>
        var (s2, adminOut) := TryAdmin(s1, server, o.admin);
        var (s3, consumerOut) := TryConsumer(s2, server, o.consumer);
        (s3, announced + adminOut + [Blank] + consumerOut)
  }

  /** The group id is defaulted, never overwritten, whatever happens next. */
  lemma ConnectGroupId(s: State, o: ConnectOracle)
    requires Distinct(s.config)
    ensures var r := Connect(s, o);
      && (GroupIdKey in ToMap(s.config) ==> r.0.config == s.config)
      && (GroupIdKey !in ToMap(s.config) ==>
           && ToMap(r.0.config) == ToMap(s.config)[GroupIdKey := One(Str(o.freshId))]
           && GroupIdGenerated(o.freshId) in r.1)
  {
  }

  /** Without a bootstrap server nothing is attempted: only the group id may
      change, and the last line says the server is missing. */
  lemma ConnectWithoutBootstrap(s: State, o: ConnectOracle)
    requires Distinct(s.config)
    requires BootstrapKey !in ToMap(s.config)
    ensures var r := Connect(s, o);
      && r.0 == s.(config := r.0.config)
      && |r.1| > 0 && r.1[|r.1| - 1] == BootstrapMissing
      && forall e :: e in r.1 ==> e == BootstrapMissing || e.GroupIdGenerated? || e == Blank
  {
    var (config, announced) := DefaultGroupId(s.config, o.freshId);
    assert BootstrapKey !in ToMap(config);
  }

  /** An empty bootstrap list makes `random.choice` raise: no client is
      attempted and the program ends with the error. */
  lemma ConnectEmptyList(s: State, o: ConnectOracle)
    requires Distinct(s.config)
    requires BootstrapKey in ToMap(s.config)
    requires ResolveServer(ToMap(s.config)[BootstrapKey], o.pick).None?
    ensures var r := Connect(s, o);
      && r.0 == s.(config := r.0.config)
      && |r.1| > 0 && r.1[|r.1| - 1] == Crashed(EmptyChoice)
      && forall e :: e in r.1 ==> e == Crashed(EmptyChoice) || e.GroupIdGenerated? || e == Blank
  {
    var (config, announced) := DefaultGroupId(s.config, o.freshId);
    assert ToMap(config)[BootstrapKey] == ToMap(s.config)[BootstrapKey];
  }

  /** With a server chosen, each client is attempted; a handle changes only
      on its own success, built from the configuration connect leaves behind,
      and the label names the server once some client was built. */
  lemma ConnectClients(s: State, o: ConnectOracle)
    requires Distinct(s.config)
    requires BootstrapKey in ToMap(s.config)
    requires ResolveServer(ToMap(s.config)[BootstrapKey], o.pick).Some?
    ensures var server := ResolveServer(ToMap(s.config)[BootstrapKey], o.pick).value;
      var r := Connect(s, o);
      && (o.admin.Built? ==> r.0.admin == Some(AdminHandle(AdminConfig(r.0.config, server))))
      && (o.admin.Refused? ==> r.0.admin == s.admin)
      && (o.consumer.Built? ==> r.0.consumer == Some(ConsumerHandle(ConsumerConfig(r.0.config, server))))
      && (o.consumer.Refused? ==> r.0.consumer == s.consumer)
      && ((o.admin.Built? || o.consumer.Built?) ==> r.0.broker == server)
      && (!(o.admin.Built? || o.consumer.Built?) ==> r.0.broker == s.broker)
  {
    var (config, announced) := DefaultGroupId(s.config, o.freshId);
    assert ToMap(config)[BootstrapKey] == ToMap(s.config)[BootstrapKey];
  }

  /** Each attempt is reported: connected exactly when built, failed with its
      reason exactly when refused, and nothing else besides the group-id
      notice and the blank separator. */
  lemma ConnectReports(s: State, o: ConnectOracle)
    requires Distinct(s.config)
    requires BootstrapKey in ToMap(s.config)
    requires ResolveServer(ToMap(s.config)[BootstrapKey], o.pick).Some?
    ensures var r := Connect(s, o);
      && (AdminConnected in r.1 <==> o.admin.Built?)
      && (ConsumerConnected in r.1 <==> o.consumer.Built?)
      && (forall x :: AdminConnectFailed(x) in r.1 <==> o.admin == Refused(x))
      && (forall x :: ConsumerConnectFailed(x) in r.1 <==> o.consumer == Refused(x))
      && (forall e :: e in r.1 ==>
            || e.GroupIdGenerated? || e == Blank
            || e == AdminConnected || e.AdminConnectFailed?
            || e == ConsumerConnected || e.ConsumerConnectFailed?)
  {
    var (config, announced) := DefaultGroupId(s.config, o.freshId);
    assert ToMap(config)[BootstrapKey] == ToMap(s.config)[BootstrapKey];
    var server := ResolveServer(ToMap(config)[BootstrapKey], o.pick).value;
    var (s2, adminOut) := TryAdmin(s.(config := config), server, o.admin);
    var consumerOut := TryConsumer(s2, server, o.consumer).1;
    assert Connect(s, o).1 == announced + adminOut + [Blank] + consumerOut;
    AttemptEvents(announced, o.admin, o.consumer);
  }

  /** The lines of the two attempts, after the group-id notice. */
  lemma AttemptEvents(announced: seq<Event>, admin: Construction, consumer: Construction)
    requires forall e :: e in announced ==> e.GroupIdGenerated? || e == Blank
    ensures var r := announced
        + [if admin.Built? then AdminConnected else AdminConnectFailed(admin.reason)] + [Blank]
        + [if consumer.Built? then ConsumerConnected else ConsumerConnectFailed(consumer.reason)];
      && (AdminConnected in r <==> admin.Built?)
      && (ConsumerConnected in r <==> consumer.Built?)
      && (forall x :: AdminConnectFailed(x) in r <==> admin == Refused(x))
      && (forall x :: ConsumerConnectFailed(x) in r <==> consumer == Refused(x))
      && (forall e :: e in r ==>
            || e.GroupIdGenerated? || e == Blank
            || e == AdminConnected || e.AdminConnectFailed?
            || e == ConsumerConnected || e.ConsumerConnectFailed?)
  {
  }

  /** The guard in the command loop: `connect` on an empty configuration only
      prints "Configuration required", so not even a group id is written. */
  function ConnectCommand(s: State, o: ConnectOracle): (r: (State, seq<Event>))
    requires Distinct(s.config)
    ensures |s.config| == 0 ==> r == (s, [ConfigurationRequired])
    ensures |s.config| > 0 ==> r == Connect(s, o)
  {
    if |s.config| == 0 then (s, [ConfigurationRequired]) else Connect(s, o)
  }

  /** Whether the admin client is built does not affect the consumer attempt. */
  lemma ConsumerIndependentOfAdmin(s: State, o: ConnectOracle, other: Construction)
    requires Distinct(s.config)
    ensures Connect(s, o).0.consumer == Connect(s, o.(admin := other)).0.consumer
    ensures Connect(s, o).0.config == Connect(s, o.(admin := other)).0.config
  {
    var (config, announced) := DefaultGroupId(s.config, o.freshId);
    var s1 := s.(config := config);
    if BootstrapKey in ToMap(config) {
      var server := ResolveServer(ToMap(config)[BootstrapKey], o.pick);
      if server.Some? {
        var a := TryAdmin(s1, server.value, o.admin).0;
        var b := TryAdmin(s1, server.value, other).0;
        assert a.config == b.config && a.consumer == b.consumer;
        assert Connect(s, o).0 == TryConsumer(a, server.value, o.consumer).0;
        assert Connect(s, o.(admin := other)).0 == TryConsumer(b, server.value, o.consumer).0;
      }
    }
  }

  /** Once connect has run, the group id is fixed: a later connect keeps the
      configuration exactly as it is. */
  lemma GroupIdSettles(s: State, o1: ConnectOracle, o2: ConnectOracle)
    requires Distinct(s.config)
    ensures var s1 := Connect(s, o1).0;
      GroupIdKey in ToMap(s1.config) && Connect(s1, o2).0.config == s1.config
  {
    var s1 := Connect(s, o1).0;
    ConnectGroupId(s, o1);
    ConnectGroupId(s1, o2);
  }

  /** `exec_disconnect`: closes exactly the clients that are present, says so
      when there are none, and leaves the session untouched (the closed
      handles stay in it). */
  function Disconnect(s: State): (r: (State, seq<Event>))
    ensures r.0 == s
    ensures NotConnected in r.1 <==> s.admin.None? && s.consumer.None?
    ensures forall h :: AdminClosed(h) in r.1 <==> s.admin == Some(h)
    ensures forall h :: ConsumerClosed(h) in r.1 <==> s.consumer == Some(h)
    ensures s.admin.Some? ==> multiset(r.1)[AdminClosed(s.admin.value)] == 1
    ensures s.consumer.Some? ==> multiset(r.1)[ConsumerClosed(s.consumer.value)] == 1
    ensures forall e :: e in r.1 ==> e.NotConnected? || e.AdminClosed? || e.ConsumerClosed?
  {
    (s,
     (if s.admin.None? && s.consumer.None? then [NotConnected] else [])
     + (match s.admin case Some(h) => [AdminClosed(h)] case None => [])
     + (match s.consumer case Some(h) => [ConsumerClosed(h)] case None => []))
  }
}

=== FILE: dicts.dfy ===
/** A Python dict with str keys, modelled as its insertion-ordered list of
    (key, value) pairs. Building a dict from pairs, `d[k] = v`, `d |= e` and a
    filtering comprehension all keep the order Python keeps; ToMap forgets it. */
module Dicts {

  function Keys<V>(d: seq<(string, V)>): (ks: seq<string>)
    ensures |ks| == |d|
    ensures forall i :: 0 <= i < |d| ==> ks[i] == d[i].0
  {
    seq(|d|, i requires 0 <= i < |d| => d[i].0)
  }

  /** The mapping a list of pairs denotes; a later pair for the same key wins,
      as in `dict(pairs)`. */
  function ToMap<V>(d: seq<(string, V)>): map<string, V>
  {
    if |d| == 0 then map[] else map[d[0].0 := d[0].1] + ToMap(d[1..])
  }

  /** No key occurs twice: true of every list of pairs a real dict yields. */
  predicate Distinct<V>(d: seq<(string, V)>)
  {
    |d| == 0 || (d[0].0 !in ToMap(d[1..]) && Distinct(d[1..]))
  }

  lemma ToMapCons<V>(x: (string, V), d: seq<(string, V)>)
    ensures ToMap([x] + d) == map[x.0 := x.1] + ToMap(d)
    ensures Keys([x] + d) == [x.0] + Keys(d)
    ensures Distinct([x] + d) <==> x.0 !in ToMap(d) && Distinct(d)
  {
    assert ([x] + d)[1..] == d;
  }

  /** A key is mapped exactly when some pair carries it. */
  lemma {:induction false} ToMapKeys<V>(d: seq<(string, V)>)
    ensures forall k :: k in ToMap(d) <==> k in Keys(d)
  {
    if |d| > 0 {
      ToMapKeys(d[1..]);
      ToMapCons(d[0], d[1..]);
      assert d == [d[0]] + d[1..];
    }
  }

  /** In a dict, the value ToMap gives a key is the one its pair holds. */
  lemma {:induction false} ToMapValue<V>(d: seq<(string, V)>, i: nat)
    requires Distinct(d) && i < |d|
    ensures d[i].0 in ToMap(d) && ToMap(d)[d[i].0] == d[i].1
  {
    if i > 0 {
      ToMapValue(d[1..], i - 1);
      assert d[1..][i - 1] == d[i];
    }
  }

  /** Python's `d[k] = v`. */
  function Set<V>(d: seq<(string, V)>, k: string, v: V): seq<(string, V)>
  {
    if |d| == 0 then [(k, v)]
    else if d[0].0 == k then [(k, v)] + d[1..]
    else [d[0]] + Set(d[1..], k, v)
  }

  /** `d[k] = v` maps k to v and leaves every other key alone; an existing key
      keeps its place and a new key goes last. */
  lemma SetSpec<V>(d: seq<(string, V)>, k: string, v: V)
    requires Distinct(d)
    ensures Distinct(Set(d, k, v))
    ensures ToMap(Set(d, k, v)) == ToMap(d)[k := v]
    ensures k in ToMap(d) ==> Keys(Set(d, k, v)) == Keys(d)
    ensures k !in ToMap(d) ==> Keys(Set(d, k, v)) == Keys(d) + [k]
  {
    SetMap(d, k, v);
    SetKeys(d, k, v);
  }

  lemma {:induction false} SetMap<V>(d: seq<(string, V)>, k: string, v: V)
    requires Distinct(d)
    ensures Distinct(Set(d, k, v))
    ensures ToMap(Set(d, k, v)) == ToMap(d)[k := v]
  {
    if |d| == 0 {
      ToMapCons((k, v), []);
    } else {
      ToMapCons(d[0], d[1..]);
      assert d == [d[0]] + d[1..];
      if d[0].0 == k {
        ToMapCons((k, v), d[1..]);
        ReplaceHead(d[0].1, k, v, ToMap(d[1..]));
      } else {
        SetMap(d[1..], k, v);
        ToMapCons(d[0], Set(d[1..], k, v));
        UpdateBehindHead(d[0].0, d[0].1, k, v, ToMap(d[1..]));
      }
    }
  }

  lemma ReplaceHead<V>(w: V, k: string, v: V, t: map<string, V>)
    requires k !in t
    ensures map[k := v] + t == (map[k := w] + t)[k := v]
  {
  }

  lemma UpdateBehindHead<V>(a: string, b: V, k: string, v: V, t: map<string, V>)
    requires a != k
    ensures map[a := b] + t[k := v] == (map[a := b] + t)[k := v]
  {
  }

  lemma {:induction false} SetKeys<V>(d: seq<(string, V)>, k: string, v: V)
    ensures k in ToMap(d) ==> Keys(Set(d, k, v)) == Keys(d)
    ensures k !in ToMap(d) ==> Keys(Set(d, k, v)) == Keys(d) + [k]
  {
    if |d| == 0 {
      ToMapCons((k, v), []);
    } else {
      ToMapCons(d[0], d[1..]);
      assert d == [d[0]] + d[1..];
      if d[0].0 == k {
        ToMapCons((k, v), d[1..]);
      } else {
        SetKeys(d[1..], k, v);
        ToMapCons(d[0], Set(d[1..], k, v));
      }
    }
  }

  /** Python's `d |= e` (dict.update): the pairs of e are written into d one
      after the other. */
  function Update<V>(d: seq<(string, V)>, e: seq<(string, V)>): seq<(string, V)>
    decreases |e|
  {
    if |e| == 0 then d else Update(Set(d, e[0].0, e[0].1), e[1..])
  }

  /** `d |= e` is a shallow override: the merged mapping is d's overridden by
      e's, and d's keys keep their order at the front. */
  lemma {:induction false} UpdateSpec<V>(d: seq<(string, V)>, e: seq<(string, V)>)
    requires Distinct(d)
    ensures Distinct(Update(d, e))
    ensures ToMap(Update(d, e)) == ToMap(d) + ToMap(e)
    ensures Keys(d) <= Keys(Update(d, e))
    decreases |e|
  {
    if |e| > 0 {
      var d' := Set(d, e[0].0, e[0].1);
      SetSpec(d, e[0].0, e[0].1);
      UpdateSpec(d', e[1..]);
      ToMapCons(e[0], e[1..]);
      assert e == [e[0]] + e[1..];
      OverrideStep(ToMap(d), e[0].0, e[0].1, ToMap(e[1..]));
    }
  }

  lemma OverrideStep<V>(m: map<string, V>, k: string, v: V, t: map<string, V>)
    ensures m + (map[k := v] + t) == m[k := v] + t
  {
  }

  /** `dict(pairs)` for the pairs of a parsed JSON object, in document order. */
  function FromPairs<V>(e: seq<(string, V)>): (r: seq<(string, V)>)
    ensures Distinct(r)
    ensures ToMap(r) == ToMap(e)
  {
    UpdateSpec([], e);
    Update([], e)
  }

  /** `{k: v for k, v in d.items() if k in ks}`. */
  function Restrict<V>(d: seq<(string, V)>, ks: set<string>): seq<(string, V)>
  {
    if |d| == 0 then []
    else if d[0].0 in ks then [d[0]] + Restrict(d[1..], ks)
    else Restrict(d[1..], ks)
  }

  /** The comprehension keeps exactly the pairs whose key is in ks. */
  lemma RestrictSpec<V>(d: seq<(string, V)>, ks: set<string>)
    ensures Distinct(d) ==> Distinct(Restrict(d, ks))
    ensures ToMap(Restrict(d, ks)) == map k | k in ToMap(d) && k in ks :: ToMap(d)[k]
  {
    RestrictDistinct(d, ks);
    RestrictMap(d, ks);
  }

  lemma {:induction false} RestrictDistinct<V>(d: seq<(string, V)>, ks: set<string>)
    ensures Distinct(d) ==> Distinct(Restrict(d, ks))
    ensures forall k :: k in ToMap(Restrict(d, ks)) ==> k in ToMap(d)
  {
    if |d| > 0 {
      RestrictDistinct(d[1..], ks);
      ToMapCons(d[0], d[1..]);
      assert d == [d[0]] + d[1..];
      if d[0].0 in ks {
        ToMapCons(d[0], Restrict(d[1..], ks));
      }
    }
  }

  lemma {:induction false} RestrictMap<V>(d: seq<(string, V)>, ks: set<string>)
    ensures ToMap(Restrict(d, ks)) == map k | k in ToMap(d) && k in ks :: ToMap(d)[k]
  {
    if |d| > 0 {
      RestrictMap(d[1..], ks);
      ToMapCons(d[0], d[1..]);
      assert d == [d[0]] + d[1..];
      if d[0].0 in ks {
        ToMapCons(d[0], Restrict(d[1..], ks));
        RestrictHeadKept(d[0].0, d[0].1, ToMap(d[1..]), ks);
      } else {
        RestrictHeadDropped(d[0].0, d[0].1, ToMap(d[1..]), ks);
      }
    }
  }

  lemma RestrictHeadKept<V>(a: string, b: V, t: map<string, V>, ks: set<string>)
    requires a in ks
    ensures map[a := b] + (map k | k in t && k in ks :: t[k])
      == map k | k in map[a := b] + t && k in ks :: (map[a := b] + t)[k]
  {
  }

  lemma RestrictHeadDropped<V>(a: string, b: V, t: map<string, V>, ks: set<string>)
    requires a !in ks
    ensures (map k | k in t && k in ks :: t[k])
      == map k | k in map[a := b] + t && k in ks :: (map[a := b] + t)[k]
  {
  }

  /** Two dicts with the same keys in the same order and the same mapping are
      the same dict. */
  lemma SameDict<V>(a: seq<(string, V)>, b: seq<(string, V)>)
    requires Distinct(a) && Distinct(b)
    requires Keys(a) == Keys(b) && ToMap(a) == ToMap(b)
    ensures a == b
  {
    forall i | 0 <= i < |a|
      ensures a[i] == b[i]
    {
      ToMapValue(a, i);
      ToMapValue(b, i);
    }
  }

  /** Writing keys a dict already holds never moves or adds a key. */
  lemma {:induction false} UpdateKeepsKeys<V>(d: seq<(string, V)>, e: seq<(string, V)>)
    requires Distinct(d)
    requires forall k :: k in ToMap(e) ==> k in ToMap(d)
    ensures Keys(Update(d, e)) == Keys(d)
    decreases |e|
  {
    if |e| > 0 {
      var d' := Set(d, e[0].0, e[0].1);
      SetSpec(d, e[0].0, e[0].1);
      ToMapCons(e[0], e[1..]);
      assert e == [e[0]] + e[1..];
      UpdateKeepsKeys(d', e[1..]);
    }
  }

  /** Merging the same pairs twice gives the dict a single merge gives. */
  lemma UpdateIdempotent<V>(d: seq<(string, V)>, e: seq<(string, V)>)
    requires Distinct(d)
    ensures Update(Update(d, e), e) == Update(d, e)
  {
    var u := Update(d, e);
    UpdateSpec(d, e);
    UpdateKeepsKeys(u, e);
    UpdateSpec(u, e);
    SameDict(Update(u, e), u);
  }
}

=== FILE: session.dfy ===
/** The session the command loop keeps, and the output its commands produce. */
module Session {
  import opened Wrappers
  import opened Strings
  import opened Values
  import opened Clients
  import Table

  /** The `State` record: the configuration, the two optional clients, and the
      label the prompt shows for the broker in use. */
  datatype State = State(
    config: Config,
    admin: Option<AdminHandle>,
    consumer: Option<ConsumerHandle>,
    broker: Scalar)

  const NotConnectedLabel: Scalar := Str("not connected")

  function Initial(): (s: State)
    ensures s.config == [] && s.admin.None? && s.consumer.None?
    ensures s.broker == NotConnectedLabel
  {
    State([], None, None, NotConnectedLabel)
  }

  /** What a command prints, one event per `print` call (a table is one event). */
  datatype Event =
    | Blank
    | LoadFailed(path: string)
    | NotAnObject
    | Loaded
    | NoConfiguration
    | ConfigurationRequired
    | GroupIdGenerated(groupId: string)
    | BootstrapMissing
    | AdminConnected
    | AdminConnectFailed(reason: string)
    | ConsumerConnected
    | ConsumerConnectFailed(reason: string)
    | Crashed(reason: string)
    | NotConnected
    | AdminClosed(admin: AdminHandle)
    | ConsumerClosed(consumer: ConsumerHandle)
    | MetadataFailed(reason: string)
    | ClusterId(clusterId: Option<string>)
    | OriginBrokerName(name: string)
    | OriginBrokerId(originId: int)
    | InvalidOriginBrokerId(originId: int)
    | ControllerId(controllerId: int)
    | InvalidControllerId(controllerId: int)
    | DescribeFailed(brokerId: int)
    | Tabulated(rows: seq<Table.Row>)

  /** The events reported with the " (-)" marker: every refusal, failure and
      invalid claim. */
  predicate Failure(e: Event)
  {
    || e.LoadFailed? || e.NotAnObject? || e.NoConfiguration? || e.ConfigurationRequired?
    || e.BootstrapMissing? || e.AdminConnectFailed? || e.ConsumerConnectFailed?
    || e.Crashed? || e.NotConnected? || e.MetadataFailed?
    || e.InvalidOriginBrokerId? || e.InvalidControllerId? || e.DescribeFailed?
  }

  /** Whether m ends with t. */
  predicate EndsWith(m: string, t: string)
  {
    |t| <= |m| && m[|m| - |t|..] == t
  }

  /** The text an event carries at the end of its line, if any: a path, an
      id, a reason or a name (`None` for a missing cluster id). */
  function Detail(e: Event): string
    requires !e.Tabulated?
  {
    match e
    case LoadFailed(path) => path
    case GroupIdGenerated(gid) => gid
    case AdminConnectFailed(reason) => reason
    case ConsumerConnectFailed(reason) => reason
    case Crashed(reason) => reason
    case MetadataFailed(reason) => reason
    case OriginBrokerName(name) => name
    case OriginBrokerId(id) => IntToString(id)
    case InvalidOriginBrokerId(id) => IntToString(id)
    case ControllerId(id) => IntToString(id)
    case InvalidControllerId(id) => IntToString(id)
    case DescribeFailed(id) => IntToString(id)
    case ClusterId(cid) => (match cid case Some(c) => c case None => "None")
    case _ => ""
  }

  /** The line an event prints. AdminClosed and ConsumerClosed stand for the
      `close()` call together with the line reporting it; Crashed is an
      exception the command does not catch, reported by the entry point's
      catch-all, which also ends the program. Every line but the blank one
      opens with " (-)" for a failure and " (+)" otherwise, and ends with the
      text or id the event carries. */
  function Message(e: Event): (m: string)
    requires !e.Tabulated?
    ensures m == "" <==> e.Blank?
    ensures Failure(e) ==> |m| >= 4 && m[..4] == " (-)"
    ensures !e.Blank? && !Failure(e) ==> |m| >= 4 && m[..4] == " (+)"
    ensures EndsWith(m, Detail(e))
  {
    if e.Blank? then ""
    else
      var marker := if Failure(e) then " (-)" else " (+)";
      assert (marker + Wording(e) + Detail(e))[..4] == marker;
      marker + Wording(e) + Detail(e)
  }

  /** The fixed words of an event's line, between the marker and the detail. */
  function Wording(e: Event): string
  {
    match e
    case Blank => ""
    case LoadFailed(_) => " Could not load file: "
    case NotAnObject => " Configuration must be an object"
    case Loaded => " Loaded configuration from file:"
    case NoConfiguration => " No configuration"
    case ConfigurationRequired => " Configuration required"
    case GroupIdGenerated(_) => " Group ID not configured, using: "
    case BootstrapMissing => " Bootstrap server not configured"
    case AdminConnected => " Admin client connected"
    case AdminConnectFailed(_) => " Admin client connection failed: "
    case ConsumerConnected => " Consumer connected"
    case ConsumerConnectFailed(_) => " Consumer connection failed: "
    case Crashed(_) => " ERROR: "
    case NotConnected => " Not connected"
    case AdminClosed(_) => " Admin disconnected"
    case ConsumerClosed(_) => " Consumer disconnected"
    case MetadataFailed(_) => " Could not query metadata: "
    case ClusterId(_) => " Cluster ID: "
    case OriginBrokerName(_) => " Metadata origin broker name: "
    case OriginBrokerId(_) => " Metadata origin broker ID: "
    case InvalidOriginBrokerId(_) => " Invalid metadata origin broker ID: "
    case ControllerId(_) => " Controller broker ID: "
    case InvalidControllerId(_) => " Invalid controller broker ID: "
    case DescribeFailed(_) => " Could not describe broker "
    case Tabulated(_) => ""
  }

  /** Every table among the events lays out without raising. */
  predicate TablesPrintable(out: seq<Event>)
  {
    forall k :: 0 <= k < |out| ==> out[k].Tabulated? ==> Table.Printable(out[k].rows)
  }

  lemma TablesPrintableConcat(a: seq<Event>, b: seq<Event>)
    requires TablesPrintable(a) && TablesPrintable(b)
    ensures TablesPrintable(a + b)
  {
    forall k | 0 <= k < |a + b|
      ensures (a + b)[k].Tabulated? ==> Table.Printable((a + b)[k].rows)
    {
      if k >= |a| {
        assert (a + b)[k] == b[k - |a|];
      }
    }
  }

  /** The printed text of a command's output. */
  function Render(out: seq<Event>): (r: seq<string>)
    requires TablesPrintable(out)
    ensures |r| >= |out|
  {
    if |out| == 0 then []
    else EventLines(out[0]) + Render(out[1..])
  }

  /** The lines one event prints: a table's layout, or the event's message. */
  function EventLines(e: Event): (r: seq<string>)
    requires e.Tabulated? ==> Table.Printable(e.rows)
    ensures |r| > 0
  {
    if e.Tabulated? then Table.TPrint(e.rows).value else [Message(e)]
  }

  /** Output without tables prints one line per event, its message. */
  lemma {:induction false} RenderPlain(out: seq<Event>)
    requires forall k :: 0 <= k < |out| ==> !out[k].Tabulated?
    ensures TablesPrintable(out)
    ensures |Render(out)| == |out|
    ensures forall k :: 0 <= k < |out| ==> Render(out)[k] == Message(out[k])
  {
    if |out| > 0 {
      RenderPlain(out[1..]);
      assert Render(out) == [Message(out[0])] + Render(out[1..]);
    }
  }

  /** Output is printed event by event: the text of two stretches of output
      is the text of the first followed by the text of the second. */
  lemma {:induction false} RenderAppend(a: seq<Event>, b: seq<Event>)
    requires TablesPrintable(a) && TablesPrintable(b)
    ensures TablesPrintable(a + b)
    ensures Render(a + b) == Render(a) + Render(b)
  {
    TablesPrintableConcat(a, b);
    if |a| > 0 {
      var tail := a[1..];
      assert (a + b)[0] == a[0] && (a + b)[1..] == tail + b;
      assert TablesPrintable(tail) by {
        forall k | 0 <= k < |tail| ensures tail[k] == a[k + 1] { }
      }
      TablesPrintableConcat(tail, b);
      RenderAppend(tail, b);
    } else {
      assert a + b == b;
    }
  }
}

=== FILE: sorting.dfy ===
/** Python's `sorted(xs, key=...)`, a stable sort by a key written as an
    insertion sort over sequences, and the filtering comprehension
    `[x for x in xs if p(x)]`. */
module Sorting {

  ghost predicate StrictTotalOrder<K(!new)>(lt: (K, K) -> bool)
  {
    && (forall a :: !lt(a, a))
    && (forall a, b, c :: lt(a, b) && lt(b, c) ==> lt(a, c))
    && (forall a, b :: a != b ==> lt(a, b) || lt(b, a))
  }

  /** No element is followed by one whose key is strictly smaller. */
  ghost predicate SortedBy<T, K>(s: seq<T>, key: T -> K, lt: (K, K) -> bool)
  {
    forall i, j :: 0 <= i < j < |s| ==> !lt(key(s[j]), key(s[i]))
  }

  /** Places x before the first element whose key is not smaller than x's. */
  function Insert<T, K>(x: T, s: seq<T>, key: T -> K, lt: (K, K) -> bool): (r: seq<T>)
    ensures |r| == |s| + 1
    ensures multiset(r) == multiset(s) + multiset{x}
  {
    if |s| == 0 then [x]
    else if lt(key(s[0]), key(x)) then
      assert s == [s[0]] + s[1..];
      [s[0]] + Insert(x, s[1..], key, lt)
    else [x] + s
  }

  function SortBy<T, K>(s: seq<T>, key: T -> K, lt: (K, K) -> bool): (r: seq<T>)
    ensures |r| == |s|
    ensures multiset(r) == multiset(s)
  {
    if |s| == 0 then []
    else
      assert s == [s[0]] + s[1..];
      Insert(s[0], SortBy(s[1..], key, lt), key, lt)
  }

  /** Under a strict total order, "not smaller than" is transitive. */
  lemma NotLessTransitive<K(!new)>(lt: (K, K) -> bool, a: K, b: K, c: K)
    requires StrictTotalOrder(lt)
    requires !lt(b, a) && !lt(c, b)
    ensures !lt(c, a)
  {
    if a != b {
      assert lt(a, b);
    }
  }

  lemma {:induction false} InsertSorted<T, K(!new)>(x: T, s: seq<T>, key: T -> K, lt: (K, K) -> bool)
    requires StrictTotalOrder(lt) && SortedBy(s, key, lt)
    ensures SortedBy(Insert(x, s, key, lt), key, lt)
  {
    var r := Insert(x, s, key, lt);
    if |s| > 0 {
      if lt(key(s[0]), key(x)) {
        InsertSorted(x, s[1..], key, lt);
        var tail := Insert(x, s[1..], key, lt);
        assert r == [s[0]] + tail;
        forall j | 0 < j < |r|
          ensures !lt(key(r[j]), key(r[0]))
        {
          assert r[j] == tail[j - 1];
          assert r[j] in multiset(tail);
          if r[j] != x {
            assert r[j] in multiset(s[1..]);
            var i :| 0 <= i < |s[1..]| && s[1..][i] == r[j];
            assert s[i + 1] == r[j];
          }
        }
      } else {
        assert r == [x] + s;
        forall j | 0 < j < |r|
          ensures !lt(key(r[j]), key(r[0]))
        {
          assert r[j] == s[j - 1];
          if j > 1 {
            NotLessTransitive(lt, key(x), key(s[0]), key(s[j - 1]));
          }
        }
      }
    }
  }

  /** The result of SortBy never places a larger key before a smaller one. */
  lemma {:induction false} SortBySorted<T, K(!new)>(s: seq<T>, key: T -> K, lt: (K, K) -> bool)
    requires StrictTotalOrder(lt)
    ensures SortedBy(SortBy(s, key, lt), key, lt)
  {
    if |s| > 0 {
      SortBySorted(s[1..], key, lt);
      InsertSorted(s[0], SortBy(s[1..], key, lt), key, lt);
    }
  }

  /** The filtering comprehension: the elements of s that satisfy p. */
  function Filter<T(!new)>(s: seq<T>, p: T -> bool): (r: seq<T>)
    ensures |r| <= |s|
    ensures forall k :: 0 <= k < |r| ==> r[k] in s && p(r[k])
  {
    if |s| == 0 then []
    else if p(s[0]) then [s[0]] + Filter(s[1..], p) else Filter(s[1..], p)
  }

  /** Every element that passes is kept as often as it occurs; every other
      is dropped. */
  lemma {:induction false} FilterCount<T(!new)>(s: seq<T>, p: T -> bool)
    ensures forall x :: multiset(Filter(s, p))[x] == if p(x) then multiset(s)[x] else 0
  {
    if |s| > 0 {
      FilterCount(s[1..], p);
      assert s == [s[0]] + s[1..];
    }
  }

  /** Filtering keeps the input order: filtering a concatenation filters
      each part and concatenates the results. */
  lemma {:induction false} FilterAppend<T(!new)>(a: seq<T>, b: seq<T>, p: T -> bool)
    ensures Filter(a + b, p) == Filter(a, p) + Filter(b, p)
  {
    if |a| == 0 {
      assert a + b == b;
    } else {
      var ab := a + b;
      assert ab[0] == a[0] && ab[1..] == a[1..] + b;
      FilterAppend(a[1..], b, p);
      if p(a[0]) {
        assert Filter(ab, p) == [a[0]] + Filter(a[1..] + b, p);
        assert Filter(a, p) == [a[0]] + Filter(a[1..], p);
      } else {
        assert Filter(ab, p) == Filter(a[1..] + b, p);
        assert Filter(a, p) == Filter(a[1..], p);
      }
    }
  }

  /** A single element is kept exactly when it passes. */
  lemma FilterSingle<T(!new)>(x: T, p: T -> bool)
    ensures Filter([x], p) == if p(x) then [x] else []
  {
    assert [x][1..] == [];
  }

  /** Filtering a sorted sequence leaves it sorted. */
  lemma {:induction false} FilterSorted<T(!new), K>(s: seq<T>, p: T -> bool, key: T -> K, lt: (K, K) -> bool)
    requires SortedBy(s, key, lt)
    ensures SortedBy(Filter(s, p), key, lt)
  {
    if |s| > 0 {
      FilterSorted(s[1..], p, key, lt);
      var rest := Filter(s[1..], p);
      if p(s[0]) {
        var r := [s[0]] + rest;
        forall j | 0 < j < |r|
          ensures !lt(key(r[j]), key(r[0]))
        {
          assert r[j] == rest[j - 1];
          var i :| 0 <= i < |s[1..]| && s[1..][i] == r[j];
          assert s[i + 1] == r[j];
        }
      }
    }
  }

  function IntLess(a: int, b: int): bool
  {
    a < b
  }

  lemma IntLessIsStrictTotal()
    ensures StrictTotalOrder(IntLess)
  {
  }
}

=== FILE: strings.dfy ===
/** The few operations on Python `str` values the tool relies on. */
module Strings {

  /** Python's `a < b` on str: lexicographic by code point, a proper prefix
      ordering before the longer string. */
  predicate Less(a: string, b: string)
    decreases |a|
  {
    |b| > 0 && (|a| == 0 || a[0] < b[0] || (a[0] == b[0] && Less(a[1..], b[1..])))
  }

  lemma {:induction false} LessIrreflexive(a: string)
    ensures !Less(a, a)
    decreases |a|
  {
    if |a| > 0 {
      LessIrreflexive(a[1..]);
    }
  }

  lemma {:induction false} LessTransitive(a: string, b: string, c: string)
    requires Less(a, b) && Less(b, c)
    ensures Less(a, c)
    decreases |a|
  {
    if |a| > 0 && a[0] == b[0] && b[0] == c[0] {
      LessTransitive(a[1..], b[1..], c[1..]);
    }
  }

  lemma {:induction false} LessTotal(a: string, b: string)
    requires a != b
    ensures Less(a, b) || Less(b, a)
    decreases |a|
  {
    if |a| > 0 && |b| > 0 && a[0] == b[0] {
      LessTotal(a[1..], b[1..]);
    }
  }

  /** The recursive order is the textbook lexicographic one: a is a proper
      prefix of b, or the two agree up to some index where a's character is
      the smaller. */
  lemma {:induction false} LessIsLexicographic(a: string, b: string)
    ensures Less(a, b) <==>
      (a < b || exists i :: 0 <= i < |a| && i < |b| && a[..i] == b[..i] && a[i] < b[i])
    decreases |a|
  {
    if |a| > 0 && |b| > 0 {
      LessIsLexicographic(a[1..], b[1..]);
      if a[0] == b[0] {
        if exists i :: 0 <= i < |a[1..]| && i < |b[1..]| && a[1..][..i] == b[1..][..i] && a[1..][i] < b[1..][i] {
          var i :| 0 <= i < |a[1..]| && i < |b[1..]| && a[1..][..i] == b[1..][..i] && a[1..][i] < b[1..][i];
          assert a[..i + 1] == [a[0]] + a[1..][..i];
          assert b[..i + 1] == [b[0]] + b[1..][..i];
        }
        if exists i :: 0 <= i < |a| && i < |b| && a[..i] == b[..i] && a[i] < b[i] {
          var i :| 0 <= i < |a| && i < |b| && a[..i] == b[..i] && a[i] < b[i];
          assert i > 0;
          assert a[1..][..i - 1] == a[1..i] == b[1..i] == b[1..][..i - 1];
        }
        if a < b {
          assert a[1..] < b[1..];
        }
        if a[1..] < b[1..] {
          assert a == [a[0]] + a[1..] && b == [b[0]] + b[1..];
        }
      } else if a[0] < b[0] {
        assert a[..0] == b[..0];
      } else {
        forall i | 0 < i < |a| && i < |b|
          ensures a[..i] != b[..i]
        {
          assert a[..i][0] == a[0] && b[..i][0] == b[0];
        }
      }
    } else if |a| == 0 && |b| > 0 {
      assert a < b;
    }
  }

  /** Python's `k in s` on two strings: k occurs contiguously in s (the empty
      string occurs in every string). */
  predicate IsSubstring(k: string, s: string)
    decreases |s|
  {
    k <= s || (|s| > 0 && IsSubstring(k, s[1..]))
  }

  /** The recursive test agrees with the positional reading "k starts at some
      index of s". */
  lemma {:induction false} IsSubstringIff(k: string, s: string)
    ensures IsSubstring(k, s) <==> exists i :: 0 <= i <= |s| && k <= s[i..]
    decreases |s|
  {
    if k <= s {
      assert s[0..] == s;
    } else if |s| > 0 {
      IsSubstringIff(k, s[1..]);
      if IsSubstring(k, s[1..]) {
        var i :| 0 <= i <= |s[1..]| && k <= s[1..][i..];
        assert s[1..][i..] == s[i + 1..];
      } else {
        forall i | 0 <= i <= |s|
          ensures !(k <= s[i..])
        {
          if i > 0 {
            assert s[1..][i - 1..] == s[i..];
          }
        }
      }
    }
  }

  /** Python's `s[:n]`: the longest prefix of s that is at most n long. */
  function Truncate(s: string, n: nat): (r: string)
    ensures r <= s
    ensures |r| == if |s| <= n then |s| else n
  {
    if |s| <= n then s else s[..n]
  }

  /** Python's `c * n` for a one-character string c. */
  function Repeat(c: char, n: nat): (r: string)
    ensures |r| == n
    ensures forall i :: 0 <= i < n ==> r[i] == c
  {
    seq(n, _ => c)
  }

  /** Python's `s.ljust(w)`: s followed by enough blanks to be w long. */
  function LeftJustify(s: string, w: nat): (r: string)
    ensures |r| == if |s| < w then w else |s|
    ensures s <= r
    ensures forall i :: |s| <= i < |r| ==> r[i] == ' '
  {
    if |s| < w then s + Repeat(' ', w - |s|) else s
  }

  /** Python's `sep.join(xs)`. */
  function Join(sep: string, xs: seq<string>): (r: string)
    ensures |xs| == 0 ==> r == ""
    ensures |xs| > 0 ==> xs[0] <= r
    ensures |xs| > 1 ==> xs[0] + sep <= r
  {
    if |xs| == 0 then ""
    else if |xs| == 1 then xs[0]
    else xs[0] + sep + Join(sep, xs[1..])
  }

  function DigitChar(d: nat): (c: char)
    requires d < 10
    ensures '0' <= c <= '9' && c as int - '0' as int == d
  {
    "0123456789"[d]
  }

  /** The number a string of decimal digits denotes. */
  function DigitsValue(s: string): nat
    requires forall i :: 0 <= i < |s| ==> '0' <= s[i] <= '9'
  {
    if |s| == 0 then 0
    else 10 * DigitsValue(s[..|s| - 1]) + (s[|s| - 1] as int - '0' as int)
  }

  /** The integer a decimal numeral denotes: digits, after a '-' when negative. */
  function DecimalValue(s: string): int
    requires |s| > 0
    requires forall i :: 1 <= i < |s| ==> '0' <= s[i] <= '9'
    requires s[0] == '-' || '0' <= s[0] <= '9'
  {
    if s[0] == '-' then 0 - DigitsValue(s[1..]) else DigitsValue(s)
  }

  function NatToString(n: nat): (r: string)
    ensures |r| > 0
    ensures forall i :: 0 <= i < |r| ==> '0' <= r[i] <= '9'
    ensures DigitsValue(r) == n
    ensures r[0] == '0' ==> n == 0 && r == "0"
    decreases n
  {
    if n < 10 then [DigitChar(n)] else NatToString(n / 10) + [DigitChar(n % 10)]
  }

  /** Python's `str(i)` for an int: decimal digits, a leading '-' when negative. */
  function IntToString(i: int): (r: string)
    ensures |r| > 0
    ensures r[0] == '-' <==> i < 0
    ensures forall k :: 1 <= k < |r| ==> '0' <= r[k] <= '9'
    ensures r[0] == '-' || '0' <= r[0] <= '9'
    ensures DecimalValue(r) == i
    ensures r[0] == '0' ==> r == "0"
    ensures r[0] == '-' ==> |r| > 1 && r[1] != '0'
  {
    if i < 0 then "-" + NatToString(-i) else NatToString(i)
  }
}

=== FILE: table.dfy ===
/** The text-table printer `tprint`: list-valued cells spread over several
    physical rows, every column is as wide as its widest text, and every cell
    is left-justified, so that all printed lines are equally long. */
module Table {
  import opened Wrappers
  import opened Strings

  /** A cell handed to the printer: one text, or a list of texts that runs
      down the column over several physical rows. */
  datatype Cell = Text(s: string) | Items(items: seq<string>)

  type Row = seq<Cell>

  /** A physical row: one text per column. */
  type Line = seq<string>

  /** What a list cell shows in the physical rows it has no item for. */
  const Filler: string := " ..."
  const Indent: string := "   "
  const Gap: string := "  "

  function Depth(c: Cell): nat
  {
    match c
    case Text(_) => 1
    case Items(items) => |items|
  }

  /** How many physical rows a row spreads over: as many as its deepest cell. */
  function Height(row: Row): (h: nat)
    ensures forall i :: 0 <= i < |row| ==> Depth(row[i]) <= h
    ensures |row| > 0 ==> exists i :: 0 <= i < |row| && Depth(row[i]) == h
    ensures |row| == 0 ==> h == 0
  {
    if |row| == 0 then 0
    else
      var rest := Height(row[1..]);
      assert forall i :: 1 <= i < |row| ==> row[i] == row[1..][i - 1];
      if Depth(row[0]) >= rest then Depth(row[0]) else rest
  }

  /** The text cell c shows in the j-th physical row of its row. */
  function CellAt(c: Cell, j: nat): string
  {
    match c
    case Text(s) => if j == 0 then s else Filler
    case Items(items) => if j < |items| then items[j] else Filler
  }

  /** The physical rows one row spreads over. */
  function Physical(row: Row): (p: seq<Line>)
    ensures |p| == Height(row)
    ensures forall j :: 0 <= j < |p| ==> |p[j]| == |row|
  {
    seq(Height(row), j requires 0 <= j < Height(row) =>
      seq(|row|, i requires 0 <= i < |row| => CellAt(row[i], j)))
  }

  /** The texts a cell contributes to its column, before padding. */
  function Texts(c: Cell): (t: seq<string>)
    ensures |t| == Depth(c)
  {
    match c
    case Text(s) => [s]
    case Items(items) => items
  }

  /** Read down column i, the physical rows of a row show the cell's texts in
      order and then fillers, up to the height of the deepest cell. */
  lemma PhysicalColumn(row: Row, i: nat)
    requires i < |row|
    ensures var p := Physical(row);
      seq(|p|, j requires 0 <= j < |p| => p[j][i])
      == Texts(row[i]) + seq(Height(row) - Depth(row[i]), _ => Filler)
  {
  }

  /** The physical rows of the whole table, top to bottom. */
  function Expand(rows: seq<Row>): seq<Line>
  {
    if |rows| == 0 then [] else Physical(rows[0]) + Expand(rows[1..])
  }

  /** `tprint` lays a table out without raising exactly when there is a
      first row, no row is empty (`max` of nothing), some physical row comes
      out, and no physical row is narrower than the first (`row[i]` out of
      range). */
  predicate Printable(rows: seq<Row>)
  {
    && |rows| > 0
    && (forall k :: 0 <= k < |rows| ==> |rows[k]| > 0)
    && var p := Expand(rows);
       && |p| > 0
       && forall j :: 0 <= j < |p| ==> |p[j]| >= |p[0]|
  }

  function Max(a: nat, b: nat): nat
  {
    if a < b then b else a
  }

  /** The width of column i: the longest text any physical row has there. */
  function ColumnWidth(p: seq<Line>, i: nat): (w: nat)
    requires |p| > 0
    requires forall j :: 0 <= j < |p| ==> i < |p[j]|
    ensures forall j :: 0 <= j < |p| ==> |p[j][i]| <= w
    ensures exists j :: 0 <= j < |p| && |p[j][i]| == w
  {
    if |p| == 1 then |p[0][i]|
    else
      var rest := ColumnWidth(p[1..], i);
      assert forall j :: 1 <= j < |p| ==> p[j] == p[1..][j - 1];
      Max(|p[0][i]|, rest)
  }

  /** The column widths: one per column of the first physical row, each the
      longest text in that column. */
  function Widths(p: seq<Line>): (ws: seq<nat>)
    requires |p| > 0
    requires forall j :: 0 <= j < |p| ==> |p[j]| >= |p[0]|
    ensures |ws| == |p[0]|
    ensures forall i, j :: 0 <= i < |ws| && 0 <= j < |p| ==> |p[j][i]| <= ws[i]
  {
    seq(|p[0]|, i requires 0 <= i < |p[0]| => ColumnWidth(p, i))
  }

  /** Every column is exactly as wide as its widest text: some physical row
      attains each width. */
  lemma WidthsTight(p: seq<Line>)
    requires |p| > 0
    requires forall j :: 0 <= j < |p| ==> |p[j]| >= |p[0]|
    ensures var ws := Widths(p);
      forall i :: 0 <= i < |ws| ==> exists j :: 0 <= j < |p| && |p[j][i]| == ws[i]
  {
    var ws := Widths(p);
    forall i | 0 <= i < |ws|
      ensures exists j :: 0 <= j < |p| && |p[j][i]| == ws[i]
    {
      assert ws[i] == ColumnWidth(p, i);
    }
  }

  /** The dash line under the header: as many dashes as each header text is long. */
  function Dashes(header: Line): (d: Line)
    ensures |d| == |header| && forall i :: 0 <= i < |header| ==> |d[i]| == |header[i]|
    ensures forall i, j :: 0 <= i < |header| && 0 <= j < |d[i]| ==> d[i][j] == '-'
  {
    seq(|header|, i requires 0 <= i < |header| => Repeat('-', |header[i]|))
  }

  /** One printed line: the cells, each left-justified to its column's width,
      separated by two blanks, after an indent of three. */
  function Format(cells: Line, ws: seq<nat>): string
    requires |cells| >= |ws|
    requires forall i :: 0 <= i < |ws| ==> |cells[i]| <= ws[i]
  {
    Indent + Join(Gap, Justified(cells, ws))
  }

  /** The cells of printed line k: the first physical row, then the dash
      line, then the other physical rows. Each fits its column. */
  function LineCells(p: seq<Line>, k: nat): (cells: Line)
    requires |p| > 0 && k <= |p|
    requires forall j :: 0 <= j < |p| ==> |p[j]| >= |p[0]|
    ensures |cells| >= |p[0]|
    ensures forall i :: 0 <= i < |p[0]| ==> |cells[i]| <= Widths(p)[i]
  {
    if k == 0 then p[0] else if k == 1 then Dashes(p[0]) else p[k - 1]
  }

  /** The lines printed for the physical rows p. */
  function Layout(p: seq<Line>): (lines: seq<string>)
    requires |p| > 0
    requires forall j :: 0 <= j < |p| ==> |p[j]| >= |p[0]|
    ensures |lines| == |p| + 1
  {
    seq(|p| + 1, k requires 0 <= k <= |p| => Format(LineCells(p, k), Widths(p)))
  }

  /** `tprint`: None stands for the exception a malformed table raises;
      otherwise the lines are the layout of the table's physical rows. */
  function TPrint(rows: seq<Row>): (out: Option<seq<string>>)
    ensures out.Some? <==> Printable(rows)
    ensures out.Some? ==> out.value == Layout(Expand(rows))
  {
    if !Printable(rows) then None else Some(Layout(Expand(rows)))
  }

  function Sum(ws: seq<nat>): nat
  {
    if |ws| == 0 then 0 else ws[0] + Sum(ws[1..])
  }

  /** The length every line of a table with column widths ws has. */
  function LineWidth(ws: seq<nat>): nat
  {
    |Indent| + Sum(ws) + if |ws| == 0 then 0 else |Gap| * (|ws| - 1)
  }

  /** Where column i starts inside the joined cells. */
  function ColumnStart(ws: seq<nat>, i: nat): nat
    requires i < |ws|
  {
    if i == 0 then 0 else ws[0] + |Gap| + ColumnStart(ws[1..], i - 1)
  }

  /** Where column i starts in a printed line. */
  function Column(ws: seq<nat>, i: nat): nat
    requires i < |ws|
  {
    |Indent| + ColumnStart(ws, i)
  }

  /** Texts that fill their columns exactly join into a line of the table's
      width, less the indent. */
  lemma {:induction false} JoinLength(xs: seq<string>, ws: seq<nat>)
    requires |xs| == |ws|
    requires forall i :: 0 <= i < |xs| ==> |xs[i]| == ws[i]
    ensures |Join(Gap, xs)| == LineWidth(ws) - |Indent|
  {
    if |xs| == 1 {
      assert Sum(ws) == ws[0] + Sum(ws[1..]);
    } else if |xs| > 1 {
      JoinLength(xs[1..], ws[1..]);
      assert Join(Gap, xs) == xs[0] + Gap + Join(Gap, xs[1..]);
      assert Sum(ws) == ws[0] + Sum(ws[1..]);
      assert |ws[1..]| == |ws| - 1;
    }
  }

  /** Text i of the joined texts starts at ColumnStart(ws, i). */
  lemma {:induction false} JoinColumn(xs: seq<string>, ws: seq<nat>, i: nat)
    requires |xs| == |ws| && i < |xs|
    requires forall i :: 0 <= i < |xs| ==> |xs[i]| == ws[i]
    ensures ColumnStart(ws, i) + ws[i] <= |Join(Gap, xs)|
    ensures Join(Gap, xs)[ColumnStart(ws, i)..ColumnStart(ws, i) + ws[i]] == xs[i]
  {
    if |xs| > 1 {
      var rest := Join(Gap, xs[1..]);
      assert Join(Gap, xs) == xs[0] + Gap + rest;
      if i > 0 {
        JoinColumn(xs[1..], ws[1..], i - 1);
        var c := ColumnStart(ws[1..], i - 1);
        assert ws[1..][i - 1] == ws[i] && xs[1..][i - 1] == xs[i];
        assert (xs[0] + Gap + rest)[|xs[0]| + |Gap| + c..|xs[0]| + |Gap| + c + ws[i]]
               == rest[c..c + ws[i]];
      } else {
        assert (xs[0] + Gap + rest)[..ws[0]] == xs[0];
      }
    }
  }

  /** The cells of a line, each left-justified to its column's width. */
  function Justified(cells: Line, ws: seq<nat>): (xs: seq<string>)
    requires |cells| >= |ws|
    requires forall i :: 0 <= i < |ws| ==> |cells[i]| <= ws[i]
    ensures |xs| == |ws| && forall i :: 0 <= i < |ws| ==> |xs[i]| == ws[i]
  {
    seq(|ws|, i requires 0 <= i < |ws| => LeftJustify(cells[i], ws[i]))
  }

  /** A line whose cells fit their columns is LineWidth(ws) long. */
  lemma FormatLength(cells: Line, ws: seq<nat>)
    requires |cells| >= |ws|
    requires forall i :: 0 <= i < |ws| ==> |cells[i]| <= ws[i]
    ensures |Format(cells, ws)| == LineWidth(ws)
  {
    var xs := Justified(cells, ws);
    assert Format(cells, ws) == Indent + Join(Gap, xs);
    JoinLength(xs, ws);
  }

  /** Column i of such a line holds cell i left-justified to ws[i]. */
  lemma FormatColumn(cells: Line, ws: seq<nat>, i: nat)
    requires |cells| >= |ws| && i < |ws|
    requires forall i :: 0 <= i < |ws| ==> |cells[i]| <= ws[i]
    ensures Column(ws, i) + ws[i] <= |Format(cells, ws)|
    ensures Format(cells, ws)[Column(ws, i)..Column(ws, i) + ws[i]] == LeftJustify(cells[i], ws[i])
  {
    var xs := Justified(cells, ws);
    assert Format(cells, ws) == Indent + Join(Gap, xs);
    JoinColumn(xs, ws, i);
    var c := ColumnStart(ws, i);
    assert (Indent + Join(Gap, xs))[|Indent| + c..|Indent| + c + ws[i]] == Join(Gap, xs)[c..c + ws[i]];
  }

  /** Every line of a layout is equally long: LineWidth of the column
      widths, which is 3 + the sum of the widths + 2 per gap between columns. */
  lemma LayoutLengths(p: seq<Line>)
    requires |p| > 0
    requires forall j :: 0 <= j < |p| ==> |p[j]| >= |p[0]|
    ensures var lines := Layout(p);
      forall k :: 0 <= k < |lines| ==> |lines[k]| == LineWidth(Widths(p))
  {
    var lines := Layout(p);
    forall k | 0 <= k < |lines|
      ensures |lines[k]| == LineWidth(Widths(p))
    {
      FormatLength(LineCells(p, k), Widths(p));
    }
  }

  /** Column i of a layout starts at Column(ws, i) in every line and is
      ws[i] wide, and there each line holds its cell left-justified: the
      first row's text, its dashes, then each other row's text. */
  lemma LayoutColumns(p: seq<Line>, i: nat)
    requires |p| > 0 && i < |p[0]|
    requires forall j :: 0 <= j < |p| ==> |p[j]| >= |p[0]|
    ensures var ws := Widths(p);
      var lines := Layout(p);
      var at := Column(ws, i);
      && at + ws[i] <= LineWidth(ws)
      && forall k :: 0 <= k < |lines| ==>
           && |lines[k]| == LineWidth(ws)
           && lines[k][at..at + ws[i]] == LeftJustify(LineCells(p, k)[i], ws[i])
  {
    forall k | 0 <= k <= |p|
      ensures |Layout(p)[k]| == LineWidth(Widths(p))
      ensures Column(Widths(p), i) + Widths(p)[i] <= |Layout(p)[k]|
      ensures Layout(p)[k][Column(Widths(p), i)..Column(Widths(p), i) + Widths(p)[i]]
        == LeftJustify(LineCells(p, k)[i], Widths(p)[i])
    {
      LayoutLine(p, k, i);
    }
    LayoutLine(p, 0, i);
  }

  lemma LayoutLine(p: seq<Line>, k: nat, i: nat)
    requires |p| > 0 && k <= |p| && i < |p[0]|
    requires forall j :: 0 <= j < |p| ==> |p[j]| >= |p[0]|
    ensures var ws := Widths(p);
      var line := Layout(p)[k];
      && |line| == LineWidth(ws)
      && Column(ws, i) + ws[i] <= |line|
      && line[Column(ws, i)..Column(ws, i) + ws[i]] == LeftJustify(LineCells(p, k)[i], ws[i])
  {
    var ws := Widths(p);
    var cells := LineCells(p, k);
    assert Layout(p)[k] == Format(cells, ws);
    FormatLength(cells, ws);
    FormatColumn(cells, ws, i);
  }

  /** What `tprint` prints for a printable table: one line per physical row
      plus the dash line, all of the same length, 3 + the sum of the column
      widths + 2 per gap. */
  lemma TPrintLines(rows: seq<Row>)
    requires Printable(rows)
    ensures var p := Expand(rows);
      var lines := TPrint(rows).value;
      && |lines| == |p| + 1
      && forall k :: 0 <= k < |lines| ==> |lines[k]| == LineWidth(Widths(p))
  {
    LayoutLengths(Expand(rows));
  }

  /** In line k of what `tprint` prints, column i starts at the offset it
      has in every line and is as wide as its widest text; there the line
      holds its cell left-justified: the header's text for k = 0, its dashes
      for k = 1, and the text of physical row k - 1 after that (LineCells). */
  lemma TPrintColumns(rows: seq<Row>, i: nat, k: nat)
    requires Printable(rows) && i < |Expand(rows)[0]| && k <= |Expand(rows)|
    ensures var p := Expand(rows);
      var ws := Widths(p);
      var lines := TPrint(rows).value;
      var at := Column(ws, i);
      && |lines| == |p| + 1
      && |lines[k]| == LineWidth(ws)
      && at + ws[i] <= |lines[k]|
      && lines[k][at..at + ws[i]] == LeftJustify(LineCells(p, k)[i], ws[i])
  {
    var p := Expand(rows);
    assert TPrint(rows).value == Layout(p);
    LayoutLine(p, k, i);
  }

  /** A table whose rows all have the header's n cells, the header being
      texts only, always lays out. */
  lemma {:induction false} UniformPrintable(rows: seq<Row>, n: nat)
    requires |rows| > 0 && n > 0
    requires forall k :: 0 <= k < |rows| ==> |rows[k]| == n
    requires forall i :: 0 <= i < n ==> rows[0][i].Text?
    ensures Printable(rows)
  {
    ExpandUniform(rows, n);
    assert Depth(rows[0][0]) == 1;
    assert Expand(rows) == Physical(rows[0]) + Expand(rows[1..]);
  }

  lemma {:induction false} ExpandUniform(rows: seq<Row>, n: nat)
    requires forall k :: 0 <= k < |rows| ==> |rows[k]| == n
    ensures forall j :: 0 <= j < |Expand(rows)| ==> |Expand(rows)[j]| == n
  {
    if |rows| > 0 {
      ExpandUniform(rows[1..], n);
    }
  }
}

=== FILE: values.dfy ===
/** The values a configuration file can hold, as `json.load` hands them over. */
module Values {
  import opened Strings
  import Table

  /** A JSON scalar. Other stands for every value the tool never interprets
      (null, a float, a nested array or object) and carries its `str()` text. */
  datatype Scalar = Str(s: string) | Int(i: int) | Bool(b: bool) | Other(shown: string)

  /** A configuration value: a scalar, or a JSON array (a Python list). */
  datatype Value = One(x: Scalar) | List(items: seq<Scalar>)

  /** A configuration: a dict from option name to value, in insertion order. */
  type Config = seq<(string, Value)>

  /** Python's `str()` of a scalar. */
  function Show(x: Scalar): (r: string)
    ensures x.Str? ==> r == x.s
    ensures x.Int? ==>
      && |r| > 0 && (r[0] == '-' || '0' <= r[0] <= '9')
      && (forall k :: 1 <= k < |r| ==> '0' <= r[k] <= '9')
      && DecimalValue(r) == x.i
      && (r[0] == '0' ==> r == "0")
      && (r[0] == '-' ==> |r| > 1 && r[1] != '0')
    ensures x.Bool? ==> (r == "True" <==> x.b) && (r == "False" <==> !x.b)
    ensures x.Other? ==> r == x.shown
  {
    match x
    case Str(s) => s
    case Int(i) => IntToString(i)
    case Bool(b) => if b then "True" else "False"
    case Other(shown) => shown
  }

  /** How a value sits in a table cell: a list spreads over several physical
      rows, anything else is one text. */
  function ValueCell(v: Value): (c: Table.Cell)
    ensures v.One? <==> c.Text?
    ensures v.List? ==> |c.items| == |v.items|
    ensures v.One? ==> c == Table.Text(Show(v.x))
    ensures v.List? ==> forall i :: 0 <= i < |v.items| ==> c.items[i] == Show(v.items[i])
  {
    match v
    case One(x) => Table.Text(Show(x))
    case List(items) => Table.Items(seq(|items|, i requires 0 <= i < |items| => Show(items[i])))
  }
}

=== FILE: wrappers.dfy ===
/** Optional values, standing in for Python's `None`. */
module Wrappers {

  datatype Option<+T> = None | Some(value: T)
}
